=== FILE: README.md ===
# Imui editing core in Dafny

This project models the logic at the heart of Imui, an immediate-mode GUI toolkit for Unity.

The largest part is the text-editing engine of the text-edit control:
- the buffer that turns from a borrowed view into an owned, capped copy on its first mutation;
- the caret and signed-selection state;
- the integer algorithms that walk a layout's line table and find word and line boundaries;
- the edit operations (insert, set, delete selection, delete backward and forward, paste);
- the keyboard dispatcher that turns a key event and a command set into moves and edits;
- the platform text events `Set`, `Submit` and `Cancel`.

Around it sit smaller pure components:
- the fixed-capacity ring buffer;
- the keyboard command tables for macOS and other platforms;
- the tagged numeric value and edit buffer of the numeric field;
- the button click state machine;
- neighbour flags and corner squaring for groups of controls;
- span concatenation in the formatter;
- padding arithmetic;
- the clamping setters of HCL colours.

Everything is a pure function over immutable datatypes; the concatenations (fixed-arity, with an integer, and the repeating `ConcatDuplicate`, the only one with a loop) are methods.
- A .NET exception becomes an `Err` carrying the exception kind (`Wrappers.Error`).
- Integers are unbounded except where the source relies on 32-bit wrap-around (`NumericEdit.Add`).
- C#'s truncating `%` is written out where a negative operand can occur (`CircularBuffer.PushBack`, `CircularBuffer.Get`).
- `float` is modelled as `real`, without rounding.

What the core only reads from its host is passed in as a parameter:
- the text layout, as a `(start, count)` line table;
- the Unicode character classes `IsWhiteSpace`, `IsLetterOrDigit` and `IsSymbol`;
- the clipboard content;
- the operating-system family;
- .NET number parsing and formatting;
- `ImRect.TakeLeft`;
- the pixel geometry behind vertical caret moves.

Modules:
- `Wrappers`, `Numerics`: shared result types and integer helpers.
- `TextBuffer`, `TextLayout`, `Caret`, `TextEdit`: the text-editing engine (`ImTextEdit.cs`).
- `KeyboardCommands` (`ImKeyboardCommandsHelper.cs`).
- `CircularBuffer` (`ImCircularBuffer.cs`).
- `NumericEdit` (`ImNumericEdit.cs`).
- `Button` (`ImButton.cs`).
- `Group` (`ImGroup.cs`).
- `Formatter` (`ImFormatter.cs`).
- `Padding` (`ImPadding.cs`).
- `ColorHcl` (`ImColorHcl.cs`).

## Model

| member | source | states |
|---|---|---|
| TextBuffer.FromSource | Runtime/Scripts/Controls/ImTextEdit.cs:37-57 | A buffer over a borrowed source reads as that source, keeps the given cap, and is not yet an owned copy. |
| TextBuffer.Clear | Runtime/Scripts/Controls/ImTextEdit.cs:91-95 | Clearing leaves an owned, empty buffer with the same cap, which is within the cap. |
| TextBuffer.Remove | Runtime/Scripts/Controls/ImTextEdit.cs:97-114 | Throws exactly when `pos` is not an existing offset. A count below 1 changes nothing. Otherwise `min(count, Length - pos)` characters at `pos` are cut out, the rest closes up, and the buffer becomes owned. The multiset of characters only shrinks, and the cap keeps holding. |
| TextBuffer.InsertAsWritten | Runtime/Scripts/Controls/ImTextEdit.cs:121-145 | The insertion as the source computes it: a bad position throws, and so does any buffer whose accepted count comes out negative. |
| TextBuffer.Insert | Runtime/Scripts/Controls/ImTextEdit.cs:121-145 | The corrected insertion (see Findings), which the edit operations use. Throws exactly for a position outside `[0, Length]`. An uncapped buffer takes the whole span. A capped one takes as much as fits: if it takes less than the span, the result is at least the cap. The new content is `old[..pos] + span[..count] + old[pos..]`, as a multiset too. Accepting nothing changes nothing, and the cap keeps holding. |
| TextBuffer.InsertThenRemove | Runtime/Scripts/Controls/ImTextEdit.cs:97-145 | Removing at `pos` the count an insertion accepted restores the original content. |
| TextBuffer.AsWrittenThrowsOverCap | Runtime/Scripts/Controls/ImTextEdit.cs:126-143 | For a buffer longer than its positive cap, the as-written insertion throws even for an empty span; the corrected one accepts nothing and leaves the buffer as it is. |
| TextBuffer.AsWrittenAgreesWithinCap | Runtime/Scripts/Controls/ImTextEdit.cs:121-145 | With a non-negative cap that holds, the as-written and corrected insertions agree on every input. |
| TextLayout.FindLineAtCaretPosition | Runtime/Scripts/Controls/ImTextEdit.cs:1011-1022 | Returns the line index and the caret's offset in that line. The offset is the caret minus the counts of the earlier lines. Every skipped line is no longer than what remained, and a line that is not last has the offset inside it. An empty table gives `(0, caret)`. |
| TextLayout.FoundLineContainsCaret | Runtime/Scripts/Controls/ImTextEdit.cs:1011-1022 | On a line table that tiles the buffer, any caret in `[0, Length]` lands in the found line, at `start + offset`. |
| Caret.SelectAll | Runtime/Scripts/Controls/ImTextEdit.cs:488-494 | The caret goes to the end, and the selection spans `[0, Length]`. |
| Caret.GetSelectedText | Runtime/Scripts/Controls/ImTextEdit.cs:901-912 | Throws exactly when a non-empty selection reaches outside the buffer. Otherwise yields the `|selection|` characters from the selection's left edge. |
| Caret.SelectAllSelectsEverything | Runtime/Scripts/Controls/ImTextEdit.cs:488-494 | After SelectAll, the selected text is the whole text. |
| Caret.FindEndOfLine | Runtime/Scripts/Controls/ImTextEdit.cs:688-710 | Throws exactly for an empty layout. Home gives the line start, and direction 0 keeps the caret. End gives the line end, or one before it unless the line is the unterminated last line. |
| Caret.EndOfLineWithinLine | Runtime/Scripts/Controls/ImTextEdit.cs:688-710 | On a tiling layout, Home and End stay inside the buffer and inside the caret's line. |
| Caret.WordScan | Runtime/Scripts/Controls/ImTextEdit.cs:712-756 | The scanning loop stays in `[0, Length]` and moves only in its direction; moving left from offset 0 it stays at 0. |
| Caret.WordJumpStopsAtFirstBoundary | Runtime/Scripts/Controls/ImTextEdit.cs:712-756 | The word jump stops at the first word stop it meets and passes none: an inner offset holding a non-word character reached after a word character, or a non-white one reached after two or more white spaces. With no such offset it runs to the buffer's edge. |
| Caret.ScanRightPassesNoStop | Runtime/Scripts/Controls/ImTextEdit.cs:719-753 | Resumed anywhere with the flags the loop carries, the rightward loop passes no word stop. |
| Caret.ScanRightEndsAtStop | Runtime/Scripts/Controls/ImTextEdit.cs:719-753 | The rightward loop ends on a word stop or on the buffer's edge. |
| Caret.ScanLeftPassesNoStop | Runtime/Scripts/Controls/ImTextEdit.cs:719-753 | The leftward loop passes no word stop. |
| Caret.ScanLeftEndsAtStop | Runtime/Scripts/Controls/ImTextEdit.cs:719-753 | The leftward loop ends just after a word stop (the `caret++` on a break), on offset 0, or where it started at the buffer's end. |
| Caret.TwoSpacesStopAtPunctuation | Runtime/Scripts/Controls/ImTextEdit.cs:742-750 | After one space a rightward jump runs through a comma into the next word; after two it stops at the comma. |
| Caret.FindEndOfWordOrSpacesSequence | Runtime/Scripts/Controls/ImTextEdit.cs:712-756 | For direction ±1 the result lies in `[0, Length]`. Moving right, it is at least one past the caret and stops before a non-word character. Moving left, it does not pass the caret and stops after a non-word character. |
| Caret.MoveCaretHorizontal | Runtime/Scripts/Controls/ImTextEdit.cs:789-827 | Throws only for an end jump over an empty layout. The caret ends in `[0, Length]`. Selecting keeps the anchor, so the selection becomes `old selection + (old caret - new caret)`. Otherwise the selection drops to 0, and a non-empty one collapses to its left edge (dir < 0) or right edge (dir > 0). An end jump (without a selection to collapse, or while selecting) puts the caret at the line end in its direction. Reports a change exactly when the state changed. |
| Caret.MoveCaretVertical | Runtime/Scripts/Controls/ImTextEdit.cs:758-787 | Jump commands are ignored. Otherwise the caret goes to the geometric target, and the same selection rule applies as for horizontal moves. Reports a change exactly when the state changed. |
| Caret.SelectWordOnTheSameLineAtCaret | Runtime/Scripts/Controls/ImTextEdit.cs:829-845 | Throws exactly for an empty layout. Otherwise it selects from the word start to the word end found around the caret, with the caret on the right edge, clipped to the caret's line. |
| Caret.SelectWordWithinLine | Runtime/Scripts/Controls/ImTextEdit.cs:829-845 | On a tiling layout, the selected word lies inside the caret's line and inside the buffer. |
| Caret.SelectLineAtCaret | Runtime/Scripts/Controls/ImTextEdit.cs:847-860 | Selects the caret's whole line, with the caret on its right end. An empty layout leaves the state alone. |
| Caret.SelectLineSelectsLine | Runtime/Scripts/Controls/ImTextEdit.cs:847-860 | On a tiling layout, the selected text is exactly the characters of the caret's line. |
| TextEdit.Insert | Runtime/Scripts/Controls/ImTextEdit.cs:619-629 | Empty text is a no-op that returns false. Otherwise it throws exactly for a caret outside `[0, Length]`; else the text goes in at the caret and the caret advances by exactly the accepted count, which is the whole text in an uncapped buffer. The result is true exactly when that count is positive. |
| TextEdit.SetAsWritten | Runtime/Scripts/Controls/ImTextEdit.cs:631-637 | As the source writes it: the content becomes the text, cut to a positive cap, and stays within the cap; the caret goes to `|text|` and the selection to 0. |
| TextEdit.SetAsWrittenLeavesCaretPastEnd | Runtime/Scripts/Controls/ImTextEdit.cs:631-637 | With cap 2, setting "abc" keeps "ab" but puts the caret at 3, outside the content, and a direct `Insert` call at that caret (ImTextEdit.cs:614-629) throws. |
| TextEdit.Set | Runtime/Scripts/Controls/ImTextEdit.cs:631-637 | Corrected, and not used by the text-event handler, which keeps the source's `Set`: the same content as the source, with the caret at the end of what was kept, so it always addresses the content. It agrees with the source whenever the text fits the cap. |
| TextEdit.SubmitCommitsText | Runtime/Scripts/Controls/ImTextEdit.cs:443-458 | Submitting a text that fits the cap commits exactly that text, deactivates, and leaves the caret on the end of the content with no selection. |
| TextEdit.SetRoundTrip | Runtime/Scripts/Controls/ImTextEdit.cs:631-637 | Setting a text that fits the cap reads back as that text. |
| TextEdit.DeleteSelection | Runtime/Scripts/Controls/ImTextEdit.cs:639-654 | With no selection, nothing changes and it returns false. Otherwise the selected range (clipped to the buffer) is cut out, the caret moves to its left edge, and the selection becomes 0. It throws exactly when that edge is not an existing offset. |
| TextEdit.DeleteBackward | Runtime/Scripts/Controls/ImTextEdit.cs:656-670 | Deletes the selection if there is one. Otherwise it deletes the character before the caret, and at offset 0 it returns false. |
| TextEdit.DeleteForward | Runtime/Scripts/Controls/ImTextEdit.cs:672-686 | Deletes the selection if there is one. Otherwise it deletes the character at the caret, and at the end it returns false. |
| TextEdit.PasteAsWritten | Runtime/Scripts/Controls/ImTextEdit.cs:602-612 | An empty clipboard changes nothing. Otherwise, for a buffer within a non-negative cap, it throws exactly when the selection's left edge (or, with no selection, the caret) is outside the content; over-cap and negative-cap buffers are listed under "## Left out". On success the clipped selection is replaced by the first `n` clipboard characters the buffer accepted (all of them when uncapped), the caret sits after them, the selection is 0, and the result is true exactly when `n > 0`: a deleted selection with nothing inserted reports false. |
| TextEdit.PasteAsWrittenAddsLineBreak | Runtime/Scripts/Controls/ImTextEdit.cs:602-612 | Pasting "\n" with no selection into an uncapped buffer adds a line break, whatever the mode. |
| TextEdit.WithoutLineBreaks | Runtime/Scripts/Controls/ImTextEdit.cs:578-582 | The filtered text has no line break and keeps every other character with its multiplicity. |
| TextEdit.WithoutLineBreaksKeepsCleanText | Runtime/Scripts/Controls/ImTextEdit.cs:578-582 | A text without line breaks passes the filter unchanged. |
| TextEdit.PasteFromClipboard | Runtime/Scripts/Controls/ImTextEdit.cs:602-612 | Corrected, and not used by the dispatcher, which keeps the source's paste: in multi-line mode, and for any clipboard without line breaks, it is the source's paste. In single-line mode a successful paste adds no line break. |
| TextEdit.FilteredPaste | Runtime/Scripts/Controls/ImTextEdit.cs:578-612 | Pasting the filtered clipboard adds no line break to the content. |
| TextEdit.CutThenPasteRestores | Runtime/Scripts/Controls/ImTextEdit.cs:553-569 | In an uncapped buffer, deleting a selection and pasting its text back restores the content, with the caret on the selection's right edge. |
| TextEdit.HandleArrow | Runtime/Scripts/Controls/ImTextEdit.cs:519-534 | Arrow keys never touch the text or the clipboard. The event counts as handled exactly when the caret state changed. |
| TextEdit.HandleTyped | Runtime/Scripts/Controls/ImTextEdit.cs:572-592 | NUL, a line break in single-line mode, and any input while read-only are refused without change. Handled equals changed, and single-line mode never gains a line break. |
| TextEdit.HandleCommand | Runtime/Scripts/Controls/ImTextEdit.cs:545-596 | SelectAll selects everything. Copy copies the selection and nothing else. Cut puts the selection on the clipboard. A read-only control keeps its buffer. An editable Paste runs the source's paste. In single-line mode no other command adds a line break. |
| TextEdit.HandleKeyboardEvent | Runtime/Scripts/Controls/ImTextEdit.cs:496-600 | Events other than key-down are ignored. A read-only control keeps its buffer, and arrows leave text and clipboard alone. An exact SelectAll sets caret `Length` and selection `-Length`. In single-line mode only an editable paste can add a line break. Changed implies handled. |
| TextEdit.TypingReplacesSelection | Runtime/Scripts/Controls/ImTextEdit.cs:572-592 | Typing a character over a valid selection, in an uncapped editable control, replaces the selected text with that character and leaves the caret after it. |
| TextEdit.SingleLineRefusesLineBreak | Runtime/Scripts/Controls/ImTextEdit.cs:578-582 | In single-line mode a typed line break is left unhandled and changes nothing. |
| TextEdit.SingleLinePasteAddsLineBreak | Runtime/Scripts/Controls/ImTextEdit.cs:567-612 | In an editable single-line control with an empty uncapped buffer, the platform modifier with V and "a\nb" on the clipboard yields the content "a\nb" with the caret at 3: a line break was added. |
| TextEdit.PasteShortcutPastes | Runtime/Scripts/Controls/ImTextEdit.cs:545-569 | In an editable control, the platform modifier with V runs the source's paste and reports its change as both handled and changed. |
| TextEdit.PasteIntoEmptyBuffer | Runtime/Scripts/Controls/ImTextEdit.cs:602-612 | Pasting a non-empty text into an empty uncapped buffer yields that text, the caret after it, and a change. |
| TextEdit.EditsKeepCaretInRange | Runtime/Scripts/Controls/ImTextEdit.cs:602-686 | From a caret inside the content, the (corrected) Insert always succeeds, and Insert, DeleteSelection, DeleteBackward, DeleteForward and paste leave the caret inside the new content. |
| TextEdit.KeyboardKeepsCaretInRange | Runtime/Scripts/Controls/ImTextEdit.cs:496-600 | Given an up/down target inside the content, handling any key keeps a caret that addresses the content. |
| TextEdit.HandleTextEvent | Runtime/Scripts/Controls/ImTextEdit.cs:437-458 | Cancel deactivates without change. Set and Submit replace the content as the source's `Set` does, and report a change unless both old and new text are empty. Without a selection from the platform the caret goes to the length of the given text, past the end when the cap cut it. Set may place the caret and selection; Submit deactivates. |
| KeyboardCommands.CommandMacOS | Runtime/Scripts/IO/Utility/ImKeyboardCommandsHelper.cs:29-73 | Each flag appears exactly under its condition: JumpEnd for arrow + Command without Option, JumpWord for arrow + Option without Command, Select for arrow + Shift, and SelectAll/Copy/Paste/Cut for Command + A/C/V/X. The result is true exactly when a flag is set. |
| KeyboardCommands.CommandGeneric | Runtime/Scripts/IO/Utility/ImKeyboardCommandsHelper.cs:75-113 | Never JumpEnd. JumpWord exactly for arrow + Control, Select for arrow + Shift, and SelectAll/Copy/Paste/Cut for Control + A/C/V/X. The result is true exactly when a flag is set. |
| KeyboardCommands.TryGetCommand | Runtime/Scripts/IO/Utility/ImKeyboardCommandsHelper.cs:22-27 | Uses the macOS table exactly on macOS. |
| KeyboardCommands.MovementFlagsOnlyOnArrows | Runtime/Scripts/IO/Utility/ImKeyboardCommandsHelper.cs:33-50 | Select, JumpWord and JumpEnd come only from arrow keys, on both tables. |
| KeyboardCommands.PlatformTablesAgree | Runtime/Scripts/IO/Utility/ImKeyboardCommandsHelper.cs:47-110 | On both tables Shift + arrow selects, and A/C/V/X with the platform modifier (Command on macOS, Control elsewhere) give SelectAll/Copy/Paste/Cut. |
| KeyboardCommands.MacOSBothModifiersNoJump | Runtime/Scripts/IO/Utility/ImKeyboardCommandsHelper.cs:38-46 | Arrow with both Command and Option gives neither jump. |
| CircularBuffer.New | Runtime/Scripts/Utility/ImCircularBuffer.cs:20-27 | A negative capacity overflows. Otherwise the ring is empty and valid. |
| CircularBuffer.FromArray | Runtime/Scripts/Utility/ImCircularBuffer.cs:29-41 | The ring is empty and valid over the given array, with the array's length as capacity. |
| CircularBuffer.Get | Runtime/Scripts/Utility/ImCircularBuffer.cs:44-47 | Zero capacity divides by zero. Index `i < Count` reads logical item `i`. A non-negative sum of head and index always reads a slot, and a negative one above `-Capacity` throws. |
| CircularBuffer.GetWrapsAround | Runtime/Scripts/Utility/ImCircularBuffer.cs:44-47 | `Get` reads the same slot for `index` and `index - Capacity`. |
| CircularBuffer.At | Runtime/Scripts/Utility/ImCircularBuffer.cs:10-14 | `this[i]` reads item `i`; `this[^k]` reads item `Count - k`. |
| CircularBuffer.Set | Runtime/Scripts/Utility/ImCircularBuffer.cs:51-54 | Fails exactly where `Get` does. It writes the slot `Get` reads, keeps head and count, and for `i < Count` replaces logical item `i` only. |
| CircularBuffer.Clear | Runtime/Scripts/Utility/ImCircularBuffer.cs:56-60 | Empties the ring and keeps the array. |
| CircularBuffer.PushBack | Runtime/Scripts/Utility/ImCircularBuffer.cs:62-79 | Zero capacity divides by zero. Otherwise the value becomes logical item 0 and the count grows only below capacity; a full ring loses its last item. Returns the slot written. |
| CircularBuffer.TryPopBack | Runtime/Scripts/Utility/ImCircularBuffer.cs:81-93 | An empty ring fails unchanged. Otherwise it yields item 0 and drops it. |
| CircularBuffer.PushFront | Runtime/Scripts/Utility/ImCircularBuffer.cs:95-111 | Zero capacity divides by zero. Otherwise the value is appended as the last item; a full ring drops its oldest item and stays full. Returns the slot written. |
| CircularBuffer.TryPeekFront | Runtime/Scripts/Utility/ImCircularBuffer.cs:113-123 | Yields the last item, if any. |
| CircularBuffer.TryPopFront | Runtime/Scripts/Utility/ImCircularBuffer.cs:125-136 | Yields the last item and drops it; an empty ring fails unchanged. |
| CircularBuffer.QueueKeepsArrivalOrder | Runtime/Scripts/Utility/ImCircularBuffer.cs:95-111 | Pushing values at the front of a ring with room for them appends them in arrival order. |
| CircularBuffer.PushBackThenPopBack | Runtime/Scripts/Utility/ImCircularBuffer.cs:62-93 | Popping the back right after pushing it yields the value, and restores the items when there was room. |
| CircularBuffer.PushFrontThenPopFront | Runtime/Scripts/Utility/ImCircularBuffer.cs:95-136 | Popping the front right after pushing it yields the value, and restores the items when there was room. |
| NumericEdit.IsInteger | Runtime/Scripts/Controls/ImNumericEdit.cs:483-486 | True exactly for the types that are not Single or Double. |
| NumericEdit.FromInt32 | Runtime/Scripts/Controls/ImNumericEdit.cs:553-558 | Tags the value Int32 and zeroes the other field. |
| NumericEdit.FromSingle | Runtime/Scripts/Controls/ImNumericEdit.cs:560-565 | Tags the value Single and zeroes the other field. |
| NumericEdit.Zero | Runtime/Scripts/Controls/ImNumericEdit.cs:567-572 | Zero of the requested type. |
| NumericEdit.TryParse | Runtime/Scripts/Controls/ImNumericEdit.cs:500-529 | Empty text succeeds as zero of any type. Otherwise only Int32 and Single can succeed, each exactly when its parser accepts; Single tries German before invariant culture. Failure yields the default value. |
| NumericEdit.IsValid | Runtime/Scripts/Controls/ImNumericEdit.cs:495-498 | False for empty text; otherwise equal to TryParse's verdict, so only Int32 or Single can be valid. |
| NumericEdit.ClampValue | Runtime/Scripts/Controls/ImNumericEdit.cs:531-546 | Types other than Int32 and Single are not implemented. Otherwise it throws exactly for inverted bounds, puts the field in `[min, max]`, and keeps the tag and the other field. |
| NumericEdit.ClampIdempotent | Runtime/Scripts/Controls/ImNumericEdit.cs:531-546 | Clamping twice is clamping once. |
| NumericEdit.AsDouble | Runtime/Scripts/Controls/ImNumericEdit.cs:574-585 | Returns the tagged field; other types are not implemented. |
| NumericEdit.AsDoubleOfConstructed | Runtime/Scripts/Controls/ImNumericEdit.cs:553-585 | A value built from an `Int32` or a `Single` converts back to a double equal to what it was built from. |
| NumericEdit.Format | Runtime/Scripts/Controls/ImNumericEdit.cs:587-602 | Writes the tagged field's text when it fits the span, else nothing; other types are not implemented. |
| NumericEdit.Add | Runtime/Scripts/Controls/ImNumericEdit.cs:604-617 | An Int32 adds the delta truncated toward zero, exactly when nothing overflows. A Single adds the delta. Other types are not implemented. |
| NumericEdit.AddThenSubtract | Runtime/Scripts/Controls/ImNumericEdit.cs:604-617 | Adding `n` steps to an Int32 and then `-n` restores it, wrap-around included. |
| NumericEdit.Populate | Runtime/Scripts/Controls/ImNumericEdit.cs:448-462 | A span longer than 64 throws. Otherwise the text becomes the span and the rest of the block is kept. |
| NumericEdit.PopulateValue | Runtime/Scripts/Controls/ImNumericEdit.cs:464-470 | The buffer text is what `Format` writes into 64 characters. |
| NumericEdit.PopulateThenParseInt32 | Runtime/Scripts/Controls/ImNumericEdit.cs:464-529 | With a parser that reads back what the formatter writes, an Int32 put into the edit buffer parses back to itself. |
| Button.StateOf | Runtime/Scripts/Controls/ImButton.cs:176 | Pressed exactly when active, Hovered when hovered but not active, and Normal otherwise. |
| Button.Press | Runtime/Scripts/Controls/ImButton.cs:163-230 | Read-only does nothing. A hovered Down with a matching button either clicks at once (act on press) or makes an idle button active; either way the event is consumed. Up while pressed releases the control and clicks iff hovered. Hold while pressed clicks iff ReactToHeldDown is set. A Down off the button or with a non-matching button, and any Up or Hold while not pressed, does nothing at all. |
| Button.InvisiblePress | Runtime/Scripts/Controls/ImButton.cs:251-301 | Like `Press`, except that button 0 is primary, Down does nothing while pressed, Up consumes whenever it clicks, and Hold does nothing. A Down that is off the button, non-matching or while pressed, and any Up while not pressed, does nothing at all. |
| Button.InvisibleMatchesVisibleWhenIdle | Runtime/Scripts/Controls/ImButton.cs:163-301 | For an inactive control and a non-Hold event, both buttons behave alike when they agree on the primary button. |
| Button.PressThenReleaseClicksOnce | Runtime/Scripts/Controls/ImButton.cs:198-221 | Press-then-release over the button activates, then clicks and releases. |
| Button.ActOnPressAsWrittenIgnoresTouch | Runtime/Scripts/Controls/ImButton.cs:26 | With the flag as declared, a touch press on a hovered button only activates it. |
| Button.ActOnPressCoversBothDevices | Runtime/Scripts/Controls/ImButton.cs:17-27 | With the intended flag, a press from mouse or touch clicks at once. |
| Button.GetStateStyle | Runtime/Scripts/Controls/ImButton.cs:357-369 | The Hovered or Pressed sub-style for those states, Normal otherwise. |
| Button.GetStateFrontColor | Runtime/Scripts/Controls/ImButton.cs:303-312 | The front colour of the state's sub-style. |
| Button.ActiveButtonDrawsPressed | Runtime/Scripts/Controls/ImButton.cs:176-178 | A button is drawn with the pressed style exactly while it is active. |
| Group.NewGroup | Runtime/Scripts/Controls/ImGroup.cs:38-46 | A new group has the given count and rectangle, starts at index 0 and has no one-shot size. |
| Group.SetNextSize | Runtime/Scripts/Controls/ImGroup.cs:48-51 | Sets the one-shot size and changes nothing else. |
| Group.RequestedWidth | Runtime/Scripts/Controls/ImGroup.cs:53-58 | A positive one-shot size is used as is. Otherwise each remaining item gets an equal share of the rest, and a zero count of remaining items gives a non-finite width. |
| Group.GetNext | Runtime/Scripts/Controls/ImGroup.cs:53-82 | AdjacentToLeft iff index > 0, AdjacentToRight iff index < Count-1, widened by half a border per neighbour. The index goes up by one and the one-shot size resets. |
| Group.RunFlagsNeighbours | Runtime/Scripts/Controls/ImGroup.cs:60-82 | Over any run of items, item `k` carries exactly the flags of position `k`, and the index advances by the run's length. |
| Group.NextSizeAppliesOnce | Runtime/Scripts/Controls/ImGroup.cs:48-58 | A size set for the next item is used once; the item after gets an even share again. |
| Group.Apply | Runtime/Scripts/Controls/ImGroup.cs:87-100 | Left corners are zeroed iff AdjacentToLeft, right corners iff AdjacentToRight; other corners are kept. |
| Group.ApplyIdempotent | Runtime/Scripts/Controls/ImGroup.cs:87-100 | Applying the flags twice is applying them once. |
| Group.GroupKeepsOuterCorners | Runtime/Scripts/Controls/ImGroup.cs:66-100 | In a group of two or more, only the group's outer corners stay round. |
| Formatter.Concat2 | Runtime/Scripts/Core/ImFormatter.cs:37-45 | Returns `str0 + str1`. |
| Formatter.Concat3 | Runtime/Scripts/Core/ImFormatter.cs:47-57 | Returns the three spans in order. |
| Formatter.Concat4 | Runtime/Scripts/Core/ImFormatter.cs:59-71 | Returns the four spans in order. |
| Formatter.Concat5 | Runtime/Scripts/Core/ImFormatter.cs:73-87 | Returns the five spans in order. |
| Formatter.ConcatDuplicate | Runtime/Scripts/Core/ImFormatter.cs:90-103 | Returns `str0` followed by `max(repeat, 0)` copies of `str1`, with the allocated length. |
| Formatter.FormatLong | Runtime/Scripts/Core/ImFormatter.cs:105-114 | The value's text if it fits 512 characters, else empty. |
| Formatter.ConcatInt | Runtime/Scripts/Core/ImFormatter.cs:15-24 | Returns `str` followed by the formatted value. |
| Padding.Uniform | Runtime/Scripts/Style/ImPadding.cs:16 | All four sides get the value. |
| Padding.AddValue | Runtime/Scripts/Style/ImPadding.cs:26-32 | Adds the value to each side, the same as adding a uniform padding; each total grows by twice the value. |
| Padding.Plus | Runtime/Scripts/Style/ImPadding.cs:34-54 | Component-wise sum, whose totals are the sums of the totals. |
| Padding.MinusValue | Runtime/Scripts/Style/ImPadding.cs:56-60 | Adding the value back undoes it, over reals. |
| Padding.Negate | Runtime/Scripts/Style/ImPadding.cs:62-69 | Negates both totals. |
| Padding.PlusCommutes | Runtime/Scripts/Style/ImPadding.cs:34-40 | Component-wise addition is commutative. |
| Padding.NegateIsInverse | Runtime/Scripts/Style/ImPadding.cs:62-69 | Adding the negation gives zero padding, over reals. |
| Padding.NegateInvolution | Runtime/Scripts/Style/ImPadding.cs:62-69 | Negating twice is the identity. |
| Padding.NegateDistributes | Runtime/Scripts/Style/ImPadding.cs:34-69 | Negation distributes over addition. |
| ColorHcl.AddLightness | Runtime/Scripts/Style/ImColorHcl.cs:28-31 | Lightness ends in `[0, 100]`, equal to the sum when that is in range. Hue, chroma and alpha are kept. Computed over reals. |
| ColorHcl.SetLightness | Runtime/Scripts/Style/ImColorHcl.cs:33-36 | Lightness ends in `[0, 100]`, equal to the argument when in range; the other components are kept. |
| ColorHcl.AddAlpha | Runtime/Scripts/Style/ImColorHcl.cs:38-41 | Alpha ends in `[0, 1]`; the other components are kept. Computed over reals. |
| ColorHcl.MulAlpha | Runtime/Scripts/Style/ImColorHcl.cs:43-46 | Alpha ends in `[0, 1]`; the other components are kept. Computed over reals. |
| ColorHcl.SetAlpha | Runtime/Scripts/Style/ImColorHcl.cs:48-51 | Alpha ends in `[0, 1]`, equal to the argument when in range; the other components are kept. |
| ColorHcl.SetLightnessIdempotent | Runtime/Scripts/Style/ImColorHcl.cs:33-36 | Setting the lightness twice is setting it once. |
| ColorHcl.NeutralAdjustments | Runtime/Scripts/Style/ImColorHcl.cs:28-46 | Adding zero lightness or zero alpha, or multiplying alpha by one, leaves an in-range colour unchanged. |
| ColorHcl.SettersStayInGamut | Runtime/Scripts/Style/ImColorHcl.cs:28-51 | Every setter keeps a colour's lightness and alpha in range. |

## Left out

- Arena allocation, `MakeMutable` reallocation and the capacity hint of `Clear`: the buffer is a `seq<char>` with an ownership flag.
- Geometry and drawing: view/caret coordinate mapping, scrolling, the caret and selection drawing, and the control's rectangle. The geometric part of a vertical caret move is a function parameter.
- The per-frame body of the text-edit control: mouse handling, the touch keyboard, blink time and the filter. Only its text-event branch is modelled, as `TextEdit.HandleTextEvent`.
- Unicode character classes, clipboard access, the OS query, and .NET parsing and formatting: these are parameters.
- TextEdit.Insert, TextEdit.PasteAsWritten, TextEdit.HandleTyped, TextEdit.HandleCommand, TextEdit.HandleKeyboardEvent, TextEdit.EditsKeepCaretInRange: built on the corrected `TextBuffer.Insert`, so a buffer already over a positive cap (the control builds its buffer from the caller's string without cutting it to the limit, ImTextEdit.cs:302), or one with a negative cap, accepts nothing here and the edit succeeds where the source throws at ImTextEdit.cs:141 (see Findings). "Insert always succeeds" holds for the corrected insertion only.
- TextEdit.SetAsWritten: also built on the corrected insertion, so with a negative cap it yields an empty content where the source throws.
- Caret.FindEndOfLine, Caret.MoveCaretHorizontal, Caret.SelectWordOnTheSameLineAtCaret: the line table is a sequence exactly `LinesCount` long. In the source `Lines` is a reusable array that may hold more entries, so with `LinesCount == 0` it reads a stale `Lines[0]` rather than throwing; "throws exactly for an empty layout" assumes the array is empty too.
- Caret.FindEndOfWordOrSpacesSequence: requires a direction of ±1, because with direction 0 the source loops forever.
- Caret and selection arithmetic is unbounded; 32-bit overflow of caret offsets is not modelled.
- NumericEdit.Add: the value an out-of-range `double` to `Int32` cast produces is a parameter, because C# leaves it unspecified.
- NumericEdit: `Single` arithmetic is exact on reals, with no rounding, infinities or NaN. The Byte, Int16, Int64 and Double paths exist only as "not implemented", as in the source. The numeric control, slider, drag and plus/minus buttons are not modelled.
- Formatter.ConcatDuplicate: the allocation size `str0.Length + str1.Length * repeat` is computed over unbounded integers; the source computes it in 32-bit `int`, where a large product wraps and the allocation is too small or negative.
- CircularBuffer: `Head + index` is unbounded, so overflow of a huge index is not modelled. The `ArgumentNullException` of the array constructor has no counterpart, because sequences are never null.
- Button: rectangles, registration and drawing are not modelled. Mouse event kinds other than Down, Up and Hold are merged into one kind, because the event enumeration is not part of this model.
- Group: `ImRect.TakeLeft` and `ImRect` are not part of this model. Taking a strip off the left is a parameter, so only the requested width, flags and border widening are stated.
- Formatter: `Concat(str, float)` is not modelled, because it copies `str` twice instead of the formatted value. The float, enum and unsigned `Format` overloads depend on `TryFormat` and enum utilities and are not modelled.
- Colour conversions between HCL and RGB use transcendental functions and are not modelled.
- `ImAssert` is a debug-only check with no behaviour; `NumericEdit.ClampValue` reads the bounds' fields whatever their tags, as the release build does.

## Findings

| source | as written | input that shows it | evidently intended | confidence | as-written member | corrected member |
|---|---|---|---|---|---|---|
| Runtime/Scripts/Controls/ImTextEdit.cs:126-143 | The accepted count is `min(span.Length, maxLength - Length)` with no lower bound, so a buffer already longer than a non-zero cap (or with a negative cap) gets a negative count, and `span[..count]` throws. | A buffer holding "abc" with maxLength 2, Insert(0, "x") (or an empty span) | A buffer at or over its cap accepts nothing and returns 0. | not executed | TextBuffer.InsertAsWritten, TextBuffer.AsWrittenThrowsOverCap | TextBuffer.Insert, TextBuffer.AsWrittenAgreesWithinCap |
| Runtime/Scripts/Controls/ImButton.cs:26 | `ActOnPress = ActOnPressMouse \| ActOnPressMouse` names the mouse bit twice. | A touch Down on a hovered button with flag ActOnPress only activates it instead of clicking. | `ActOnPressMouse \| ActOnPressTouch` | not executed | Button.ActOnPressAsWrittenIgnoresTouch | Button.ActOnPressCoversBothDevices |
| Runtime/Scripts/Controls/ImTextEdit.cs:631-637 | The public static `Set` puts the caret at `text.Length` even when the cap kept fewer characters, so the caret lies past the end of the content and a direct call of the public `Insert(ref state, ref buffer, …)` (lines 614-629) at that caret throws. Inside the control the per-frame clamp at line 370 pulls the caret back before the next key is handled, so typing does not reach it. | Direct API calls: a buffer with maxLength 2, `Set(ref state, ref buffer, "abc")`, then `Insert(ref state, ref buffer, "x")` | The caret goes to the end of what was kept. | not executed | TextEdit.SetAsWritten, TextEdit.SetAsWrittenLeavesCaretPastEnd | TextEdit.Set, TextEdit.EditsKeepCaretInRange |
| Runtime/Scripts/Controls/ImTextEdit.cs:567-612 | The paste command inserts the clipboard verbatim, while the typed-character branch refuses a line break in single-line mode (lines 578-582). | An editable single-line control with an empty buffer, the platform modifier with V, clipboard "a\nb": the content becomes "a\nb" | Single-line mode gains no line break through paste either; the clipboard's line breaks are dropped. | not executed | TextEdit.PasteAsWritten, TextEdit.SingleLinePasteAddsLineBreak | TextEdit.PasteFromClipboard, TextEdit.FilteredPaste |

=== FILE: button.dfy ===
/** The click state machine of buttons (`ImButton`).

    A button is hovered when the pointer is over it and pressed while it is
    the GUI's active control; both facts, the read-only mode and the frame's
    mouse event are inputs here. What the button does to the GUI (activate
    itself, release the active control, consume the event) is part of its
    outcome. Drawing and rectangles are not modelled. */
module Button {

  datatype ButtonState = Normal | Hovered | Pressed

  /** The individual bits of `ImButtonFlag`; a flag value is a set of them. */
  datatype ButtonFlag =
    | ActOnPressMouse
    | ActOnPressTouch
    | ReactToHeldDown
    | ReactToRightButton
    | ReactToAnyButton

  /** `ImButtonFlag.ActOnPress` as declared: `ActOnPressMouse | ActOnPressMouse`. */
  const ActOnPressAsWritten: set<ButtonFlag> := {ActOnPressMouse} + {ActOnPressMouse}

  /** `ImButtonFlag.ActOnPress` as intended: acting on press for both devices. */
  const ActOnPress: set<ButtonFlag> := {ActOnPressMouse} + {ActOnPressTouch}

  datatype MouseDevice = Mouse | Touch

  /** The mouse event kinds the buttons react to; every other kind (move,
      drag, scroll, none) is `OtherEvent`. */
  datatype MouseEventType = Down | Up | Hold | OtherEvent

  /** The frame's mouse event: `leftButton` is the event's own left-button
      flag, `button` the index of the button involved. */
  datatype MouseEvent = MouseEvent(kind: MouseEventType, leftButton: bool, button: int, device: MouseDevice)

  /** What the button asks of the GUI's active-control slot. */
  datatype ActiveChange = Keep | Activate | Release

  datatype ButtonOutcome = ButtonOutcome(state: ButtonState, clicked: bool, consumed: bool, active: ActiveChange)

  /** The displayed state: pressed wins over hovered. */
  function StateOf(hovered: bool, pressed: bool): (s: ButtonState)
    ensures s.Pressed? <==> pressed
    ensures s.Hovered? <==> hovered && !pressed
    ensures s.Normal? <==> !hovered && !pressed
  {
    if pressed then Pressed else if hovered then Hovered else Normal
  }

  /** Whether the event's button is one the flags let the button react to;
      `primary` is how the caller recognises the left button. */
  function ReactsTo(primary: bool, evt: MouseEvent, flags: set<ButtonFlag>): bool {
    primary || ReactToAnyButton in flags || (ReactToRightButton in flags && evt.button == 1)
  }

  /** Whether the flags ask for a click on press from the event's device. */
  function ActsOnPress(evt: MouseEvent, flags: set<ButtonFlag>): bool {
    (evt.device == Mouse && ActOnPressMouse in flags) || (evt.device == Touch && ActOnPressTouch in flags)
  }

  /** `Button(gui, id, rect, style, out state, flag)`. */
  function Press(hovered: bool, pressed: bool, readOnly: bool, evt: MouseEvent, flags: set<ButtonFlag>): (o: ButtonOutcome)
    ensures o.state == StateOf(hovered, pressed)
    ensures readOnly ==> !o.clicked && !o.consumed && o.active == Keep
    ensures !readOnly && evt.kind == Down && hovered && ReactsTo(evt.leftButton, evt, flags) ==>
      if ActsOnPress(evt, flags) then o.clicked && o.consumed && o.active == Keep
      else !o.clicked && o.consumed == !pressed && o.active == (if pressed then Keep else Activate)
    ensures !readOnly && evt.kind == Up && pressed ==>
      o.active == Release && o.clicked == hovered && o.consumed == (hovered && ActsOnPress(evt, flags))
    ensures !readOnly && evt.kind == Hold && pressed ==>
      o.clicked == (ReactToHeldDown in flags) && o.consumed == o.clicked && o.active == Keep
    ensures o.clicked ==> !readOnly && ((evt.kind == Down && hovered) || pressed)
    ensures o.active == Activate ==> hovered && !pressed && evt.kind == Down
    ensures o.active == Release ==> pressed && evt.kind == Up
    ensures evt.kind == OtherEvent ==> !o.clicked && !o.consumed && o.active == Keep
    ensures !readOnly && evt.kind == Down && !(hovered && ReactsTo(evt.leftButton, evt, flags)) ==>
      !o.clicked && !o.consumed && o.active == Keep
    ensures !pressed && evt.kind != Down ==> !o.clicked && !o.consumed && o.active == Keep
  {
    var state := StateOf(hovered, pressed);
    if readOnly then ButtonOutcome(state, false, false, Keep)
    else
      var leftButton := ReactsTo(evt.leftButton, evt, flags);
      var actOnPress := ActsOnPress(evt, flags);
      match evt.kind
      case Down =>
        if leftButton && hovered then
          if actOnPress then ButtonOutcome(state, true, true, Keep)
          else if !pressed then ButtonOutcome(state, false, true, Activate)
          else ButtonOutcome(state, false, false, Keep)
        else ButtonOutcome(state, false, false, Keep)
      case Up =>
        if pressed then ButtonOutcome(state, hovered, hovered && actOnPress, Release)
        else ButtonOutcome(state, false, false, Keep)
      case Hold =>
        if pressed && ReactToHeldDown in flags then ButtonOutcome(state, true, true, Keep)
        else ButtonOutcome(state, false, false, Keep)
      case OtherEvent => ButtonOutcome(state, false, false, Keep)
  }

  /** `InvisibleButton(gui, id, rect, out state, flag)`: the primary button
      is button 0, a press never clicks while already active, releasing over
      the control always consumes the event, and holding does nothing. */
  function InvisiblePress(hovered: bool, pressed: bool, readOnly: bool, evt: MouseEvent, flags: set<ButtonFlag>): (o: ButtonOutcome)
    ensures o.state == StateOf(hovered, pressed)
    ensures readOnly ==> !o.clicked && !o.consumed && o.active == Keep
    ensures !readOnly && evt.kind == Down && hovered && !pressed && ReactsTo(evt.button == 0, evt, flags) ==>
      o.consumed && o.clicked == ActsOnPress(evt, flags) && o.active == (if o.clicked then Keep else Activate)
    ensures evt.kind == Down && pressed ==> !o.clicked && !o.consumed && o.active == Keep
    ensures !readOnly && evt.kind == Up && pressed ==>
      o.active == Release && o.clicked == hovered && o.consumed == hovered
    ensures evt.kind == Hold || evt.kind == OtherEvent ==> !o.clicked && !o.consumed && o.active == Keep
    ensures o.clicked ==> !readOnly && hovered
    ensures !readOnly && evt.kind == Down && !(hovered && !pressed && ReactsTo(evt.button == 0, evt, flags)) ==>
      !o.clicked && !o.consumed && o.active == Keep
    ensures !pressed && evt.kind != Down ==> !o.clicked && !o.consumed && o.active == Keep
  {
    var state := StateOf(hovered, pressed);
    if readOnly then ButtonOutcome(state, false, false, Keep)
    else
      var leftButton := ReactsTo(evt.button == 0, evt, flags);
      var actOnPress := ActsOnPress(evt, flags);
      match evt.kind
      case Down =>
        if leftButton && !pressed && hovered && actOnPress then ButtonOutcome(state, true, true, Keep)
        else if leftButton && !pressed && hovered then ButtonOutcome(state, false, true, Activate)
        else ButtonOutcome(state, false, false, Keep)
      case Up =>
        if pressed then ButtonOutcome(state, hovered, hovered, Release)
        else ButtonOutcome(state, false, false, Keep)
      case _ => ButtonOutcome(state, false, false, Keep)
  }

  /** Until a button is active, and apart from held-down events, the
      visible and the invisible button behave alike whenever they agree on
      which button is the primary one. */
  lemma {:induction false} InvisibleMatchesVisibleWhenIdle(hovered: bool, readOnly: bool, evt: MouseEvent, flags: set<ButtonFlag>)
    requires evt.leftButton == (evt.button == 0)
    requires evt.kind != Hold
    ensures InvisiblePress(hovered, false, readOnly, evt, flags) == Press(hovered, false, readOnly, evt, flags)
  {
    var a := InvisiblePress(hovered, false, readOnly, evt, flags);
    var b := Press(hovered, false, readOnly, evt, flags);
    if !readOnly && evt.kind == Down && hovered && ReactsTo(evt.leftButton, evt, flags) {
      assert a.clicked == b.clicked;
    }
  }

  /** A press, then a release over the button, clicks exactly once: the
      press activates and the release clicks and frees the active slot. */
  lemma PressThenReleaseClicksOnce(evtDown: MouseEvent, evtUp: MouseEvent, flags: set<ButtonFlag>)
    requires evtDown.kind == Down && evtUp.kind == Up
    requires ReactsTo(evtDown.leftButton, evtDown, flags)
    requires !ActsOnPress(evtDown, flags)
    ensures var down := Press(true, false, false, evtDown, flags);
      && !down.clicked && down.active == Activate
      && var up := Press(true, true, false, evtUp, flags);
      up.clicked && up.active == Release
  {
  }

  /** With the flag as written, a touch press on a hovered button does not
      click on press: it only activates the button, as without the flag. */
  lemma ActOnPressAsWrittenIgnoresTouch(readOnly: bool)
    requires !readOnly
    ensures var evt := MouseEvent(Down, true, 0, Touch);
      var o := Press(true, false, readOnly, evt, ActOnPressAsWritten);
      !o.clicked && o.active == Activate
  {
  }

  /** With the intended flag, a press from either device on a hovered
      button clicks at once. */
  lemma ActOnPressCoversBothDevices(device: MouseDevice, pressed: bool)
    ensures var evt := MouseEvent(Down, true, 0, device);
      var o := Press(true, pressed, false, evt, ActOnPress);
      o.clicked && o.consumed && o.active == Keep
  {
  }

  datatype Color32 = Color32(r: int, g: int, b: int, a: int)

  /** `ImStyleButtonState`: the colours of one visual state. */
  datatype StateStyle = StateStyle(backColor: Color32, frontColor: Color32, borderColor: Color32)

  /** `ImStyleButton`, reduced to its three per-state styles. */
  datatype ButtonStyle = ButtonStyle(normal: StateStyle, hovered: StateStyle, pressed: StateStyle)

  /** `GetStateStyle`: the sub-style of the displayed state. */
  function GetStateStyle(style: ButtonStyle, state: ButtonState): (s: StateStyle)
    ensures s == (match state case Hovered => style.hovered case Pressed => style.pressed case Normal => style.normal)
  {
    if state == Hovered then style.hovered
    else if state == Pressed then style.pressed
    else style.normal
  }

  /** `GetStateFrontColor`: the front colour of the displayed state, the same
      one the state's full style carries. */
  function GetStateFrontColor(style: ButtonStyle, state: ButtonState): (c: Color32)
    ensures c == GetStateStyle(style, state).frontColor
  {
    match state
    case Hovered => style.hovered.frontColor
    case Pressed => style.pressed.frontColor
    case _ => style.normal.frontColor
  }

  /** The button is drawn with the pressed style exactly while it is the
      active control, whatever the event. */
  lemma {:induction false} ActiveButtonDrawsPressed(style: ButtonStyle, hovered: bool, pressed: bool, readOnly: bool, evt: MouseEvent, flags: set<ButtonFlag>)
    requires style.pressed != style.hovered && style.pressed != style.normal
    ensures (GetStateStyle(style, Press(hovered, pressed, readOnly, evt, flags).state) == style.pressed) <==> pressed
  {
    var state := Press(hovered, pressed, readOnly, evt, flags).state;
    assert state == StateOf(hovered, pressed);
  }
}

=== FILE: caret.dfy ===
/** Caret and selection state of a text-edit control (`ImTextEditState`) and
    the integer algorithms that move the caret and grow the selection
    (`ImTextEdit.FindEndOfLine`, `FindEndOfWordOrSpacesSequence`,
    `MoveCaretHorizontal`, `MoveCaretVertical`, `SelectWordOnTheSameLineAtCaret`,
    `SelectLineAtCaret`, `GetSelectedText`, `SelectAll`). */
module Caret {
  import opened Wrappers
  import opened Numerics
  import opened TextLayout
  import opened KeyboardCommands

  /** The caret offset and a signed selection length: the selection runs
      from the caret to `caret + selection`, so a negative length means it
      extends to the left. The blink timestamp is left out. */
  datatype State = State(caret: int, selection: int) {
    /** The selection's left edge. */
    function SelMin(): int {
      if selection < 0 then caret + selection else caret
    }

    /** The selection's right edge. */
    function SelMax(): int {
      if selection < 0 then caret else caret + selection
    }

    /** The fixed end of the selection, which a selecting move keeps. */
    function Anchor(): int {
      caret + selection
    }
  }

  /** Unicode character classes (`char.IsWhiteSpace`, `char.IsLetterOrDigit`,
      `char.IsSymbol`), left uninterpreted. */
  datatype CharClasses = CharClasses(
    isWhiteSpace: char -> bool,
    isLetterOrDigit: char -> bool,
    isSymbol: char -> bool)
  {
    predicate IsWordChar(c: char) {
      isLetterOrDigit(c) || isSymbol(c)
    }
  }

  /** Caret state after `SelectAll` on `text`: caret at the end, selection
      reaching back to offset 0. */
  function SelectAll(text: seq<char>): (s: State)
    ensures s.SelMin() == 0 && s.SelMax() == |text|
    ensures s.caret == |text|
  {
    State(|text|, -|text|)
  }

  /** The selected characters. An empty selection yields nothing; a
      selection reaching outside the buffer makes the span slice throw. */
  function GetSelectedText(s: State, buffer: seq<char>): (r: Result<seq<char>>)
    ensures r.Err? <==> s.selection != 0 && (s.SelMin() < 0 || s.SelMax() > |buffer|)
    ensures r.Err? ==> r.error == ArgumentOutOfRange
    ensures r.Ok? ==> |r.value| == if s.selection < 0 then -s.selection else s.selection
    ensures r.Ok? ==> forall i :: 0 <= i < |r.value| ==> r.value[i] == buffer[s.SelMin() + i]
  {
    if s.selection == 0 then
      Ok([])
    else
      var begin := s.SelMin();
      var end := s.SelMax();
      if begin < 0 || end > |buffer| then Err(ArgumentOutOfRange)
      else Ok(buffer[begin..end])
  }

  /** After `SelectAll` the selected text is the whole text. */
  lemma SelectAllSelectsEverything(text: seq<char>)
    ensures GetSelectedText(SelectAll(text), text) == Ok(text)
  {
    if |text| > 0 {
      assert text[0..|text|] == text;
    }
  }

  /** `End` and `Home`: the caret's line end (one before it unless the line
      is the unterminated last line) or the line start; direction 0 keeps
      the caret. Indexing the line table throws when the layout is empty. */
  function FindEndOfLine(caret: int, dir: int, buffer: seq<char>, lines: seq<Line>): (r: Result<int>)
    ensures r.Err? <==> |lines| == 0
    ensures r.Err? ==> r.error == IndexOutOfRange
    ensures r.Ok? && dir < 0 ==> r.value == lines[FindLineAtCaretPosition(caret, lines).0].start
    ensures r.Ok? && dir == 0 ==> r.value == caret
    ensures r.Ok? && dir > 0 ==>
      var line := lines[FindLineAtCaretPosition(caret, lines).0];
      var end := line.start + line.count;
      && (r.value == end || r.value == end - 1)
      && (r.value == end <==> end <= 0 || (end == |buffer| && buffer[end - 1] != '\n'))
  {
    if |lines| == 0 then
      Err(IndexOutOfRange)
    else
      var line := lines[FindLineAtCaretPosition(caret, lines).0];
      if dir > 0 then
        var index := line.start + line.count;
        if index > 0 && (index != |buffer| || buffer[index - 1] == '\n') then Ok(index - 1)
        else Ok(index)
      else if dir < 0 then
        Ok(line.start)
      else
        Ok(caret)
  }

  /** On a layout tiling the buffer, `End` and `Home` stay inside the
      caret's line and inside the buffer. */
  lemma {:induction false} EndOfLineWithinLine(caret: int, dir: int, buffer: seq<char>, lines: seq<Line>)
    requires Tiles(lines, |buffer|)
    requires 0 <= caret <= |buffer|
    ensures FindEndOfLine(caret, dir, buffer, lines).Ok?
    ensures var r := FindEndOfLine(caret, dir, buffer, lines).value;
      var line := lines[FindLineAtCaretPosition(caret, lines).0];
      && 0 <= r <= |buffer|
      && (dir != 0 ==> r <= line.start + line.count)
      && (dir < 0 || (dir > 0 && line.count > 0) ==> line.start <= r)
  {
    FoundLineContainsCaret(lines, |buffer|, caret);
    var li := FindLineAtCaretPosition(caret, lines).0;
    assert lines[li].start == CountBefore(lines, li);
    CountBeforeBounded(lines, |buffer|, li);
  }

  /** In a tiling layout each line ends within the buffer. */
  lemma {:induction false} CountBeforeBounded(lines: seq<Line>, n: int, k: nat)
    requires Tiles(lines, n)
    requires k < |lines|
    ensures 0 <= CountBefore(lines, k)
    ensures CountBefore(lines, k) + lines[k].count <= n
    decreases |lines| - k
  {
    if k + 1 < |lines| {
      CountBeforeBounded(lines, n, k + 1);
      assert CountBefore(lines, k + 1) == CountBefore(lines, k) + lines[k].count;
    } else {
      assert CountBefore(lines, |lines|) == CountBefore(lines, k) + lines[k].count;
    }
    CountBeforeNonNegative(lines, n, k);
  }

  lemma {:induction false} CountBeforeNonNegative(lines: seq<Line>, n: int, k: nat)
    requires Tiles(lines, n)
    requires k <= |lines|
    ensures 0 <= CountBefore(lines, k)
  {
    if k > 0 {
      CountBeforeNonNegative(lines, n, k - 1);
    }
  }

  /** The scanning loop of `FindEndOfWordOrSpacesSequence`, resumed at
      `caret` with the flags the loop carries: whether a word character has
      been seen and how many white-space characters were passed. */
  function WordScan(caret: int, dir: int, buffer: seq<char>, cc: CharClasses, visited: bool, spaces: nat): (r: int)
    requires dir == 1 || dir == -1
    requires 0 <= caret <= |buffer|
    ensures 0 <= r <= |buffer|
    ensures dir > 0 ==> caret <= r
    ensures dir < 0 ==> r <= caret + 1
    ensures dir < 0 && caret == 0 ==> r == 0
    decreases if dir > 0 then |buffer| - caret else caret
  {
    if !(caret > 0 && caret < |buffer|) then
      caret
    else
      var chr := buffer[caret];
      var isWhiteSpace := cc.isWhiteSpace(chr);
      var spaces' := if isWhiteSpace then spaces + 1 else spaces;
      if cc.IsWordChar(chr) then
        WordScan(caret + dir, dir, buffer, cc, true, spaces')
      else if visited || (!isWhiteSpace && spaces' > 1) then
        if dir < 0 then caret + 1 else caret
      else
        WordScan(caret + dir, dir, buffer, cc, visited, spaces')
  }

  /** Word jump: from the neighbouring offset in direction `dir`, skips a run
      of word characters (letters, digits, symbols) and stops at the next
      non-word character, or after two or more spaces at the first other
      non-word character. The source loops forever for `dir == 0`; its
      callers pass only -1 and +1. */
  function FindEndOfWordOrSpacesSequence(caret: int, dir: int, buffer: seq<char>, cc: CharClasses): (r: int)
    requires dir == 1 || dir == -1
    ensures 0 <= r <= |buffer|
    ensures dir > 0 ==> Clamp(caret + 1, 0, |buffer|) <= r
    ensures dir < 0 ==> r <= Clamp(caret, 0, |buffer|)
    ensures dir > 0 && 0 < r < |buffer| ==> !cc.IsWordChar(buffer[r])
    ensures dir < 0 && caret <= |buffer| && 0 < r ==> !cc.IsWordChar(buffer[r - 1])
  {
    var from := Clamp(caret + dir, 0, |buffer|);
    if dir > 0 then
      ScanRightPassesNoStop(from, from, buffer, cc, false, 0);
      ScanRightEndsAtStop(from, from, buffer, cc, false, 0);
      WordScan(from, dir, buffer, cc, false, 0)
    else
      ScanLeftPassesNoStop(from, from, buffer, cc, false, 0);
      ScanLeftEndsAtStop(from, from, buffer, cc, false, 0);
      WordScan(from, dir, buffer, cc, false, 0)
  }

  /** Whether a word character lies in `buffer[lo..hi]`. */
  predicate HasWordIn(buffer: seq<char>, cc: CharClasses, lo: int, hi: int)
    decreases hi - lo
  {
    0 <= lo < hi && lo < |buffer| && (cc.IsWordChar(buffer[lo]) || HasWordIn(buffer, cc, lo + 1, hi))
  }

  /** The number of white-space characters in `buffer[lo..hi]`. */
  function CountWhiteIn(buffer: seq<char>, cc: CharClasses, lo: int, hi: int): nat
    decreases hi - lo
  {
    if 0 <= lo < hi && lo < |buffer| then
      (if cc.isWhiteSpace(buffer[lo]) then 1 else 0) + CountWhiteIn(buffer, cc, lo + 1, hi)
    else 0
  }

  /** Extending a range by one character on the right. */
  lemma {:induction false} ExtendRight(buffer: seq<char>, cc: CharClasses, lo: int, hi: int)
    requires 0 <= lo <= hi < |buffer|
    ensures HasWordIn(buffer, cc, lo, hi + 1) == (HasWordIn(buffer, cc, lo, hi) || cc.IsWordChar(buffer[hi]))
    ensures CountWhiteIn(buffer, cc, lo, hi + 1)
      == CountWhiteIn(buffer, cc, lo, hi) + (if cc.isWhiteSpace(buffer[hi]) then 1 else 0)
    decreases hi - lo
  {
    if lo < hi {
      ExtendRight(buffer, cc, lo + 1, hi);
    }
  }

  /** The range of offsets a word scan from `from` has passed on its way to
      `p`, `p` itself excluded: `[from, p)` moving right, `(p, from]` moving
      left. */
  function PassedLo(from: int, p: int, dir: int): int {
    if dir > 0 then from else p + 1
  }

  function PassedHi(from: int, p: int, dir: int): int {
    if dir > 0 then p else from + 1
  }

  /** Where a word jump starting at `from` may stop: an inner offset holding
      a non-word character, reached either after a word character or, as a
      non-white character, after two or more white spaces. */
  predicate IsWordStop(buffer: seq<char>, cc: CharClasses, from: int, p: int, dir: int) {
    && 0 < p < |buffer|
    && !cc.IsWordChar(buffer[p])
    && (HasWordIn(buffer, cc, PassedLo(from, p, dir), PassedHi(from, p, dir))
        || (!cc.isWhiteSpace(buffer[p])
            && CountWhiteIn(buffer, cc, PassedLo(from, p, dir), PassedHi(from, p, dir)) > 1))
  }

  /** Scanning right, the scan passes no word stop. */
  lemma {:induction false} ScanRightPassesNoStop(from: int, c: int, buffer: seq<char>, cc: CharClasses,
                                                 visited: bool, spaces: nat)
    requires 0 <= from <= c <= |buffer|
    requires visited == HasWordIn(buffer, cc, from, c)
    requires spaces == CountWhiteIn(buffer, cc, from, c)
    requires forall q :: from <= q < c ==> !IsWordStop(buffer, cc, from, q, 1)
    ensures var r := WordScan(c, 1, buffer, cc, visited, spaces);
      forall q :: from <= q < r ==> !IsWordStop(buffer, cc, from, q, 1)
    decreases |buffer| - c
  {
    if 0 < c < |buffer| {
      var chr := buffer[c];
      var spaces' := if cc.isWhiteSpace(chr) then spaces + 1 else spaces;
      var visited' := visited || cc.IsWordChar(chr);
      var stop := !cc.IsWordChar(chr) && (visited || (!cc.isWhiteSpace(chr) && spaces' > 1));
      RightStep(from, c, buffer, cc, visited, spaces);
      ScanStep(c, 1, buffer, cc, visited, spaces);
      if !stop {
        ScanRightPassesNoStop(from, c + 1, buffer, cc, visited', spaces');
      }
    }
  }

  /** Scanning right, the scan ends on a word stop or on the buffer's edge. */
  lemma {:induction false} ScanRightEndsAtStop(from: int, c: int, buffer: seq<char>, cc: CharClasses,
                                               visited: bool, spaces: nat)
    requires 0 <= from <= c <= |buffer|
    requires visited == HasWordIn(buffer, cc, from, c)
    requires spaces == CountWhiteIn(buffer, cc, from, c)
    ensures var r := WordScan(c, 1, buffer, cc, visited, spaces);
      r == |buffer| || (from == 0 && r == 0) || IsWordStop(buffer, cc, from, r, 1)
    decreases |buffer| - c
  {
    if 0 < c < |buffer| {
      var chr := buffer[c];
      var spaces' := if cc.isWhiteSpace(chr) then spaces + 1 else spaces;
      var visited' := visited || cc.IsWordChar(chr);
      var stop := !cc.IsWordChar(chr) && (visited || (!cc.isWhiteSpace(chr) && spaces' > 1));
      RightStep(from, c, buffer, cc, visited, spaces);
      ScanStep(c, 1, buffer, cc, visited, spaces);
      if !stop {
        ScanRightEndsAtStop(from, c + 1, buffer, cc, visited', spaces');
      }
    }
  }

  /** One step of the rightward scan: the visited offset is a word stop
      exactly when the loop breaks there, and the carried flags extend. */
  lemma RightStep(from: int, c: int, buffer: seq<char>, cc: CharClasses, visited: bool, spaces: nat)
    requires 0 <= from <= c < |buffer| && 0 < c
    requires visited == HasWordIn(buffer, cc, from, c)
    requires spaces == CountWhiteIn(buffer, cc, from, c)
    ensures var chr := buffer[c];
      var spaces' := if cc.isWhiteSpace(chr) then spaces + 1 else spaces;
      && (IsWordStop(buffer, cc, from, c, 1)
          <==> !cc.IsWordChar(chr) && (visited || (!cc.isWhiteSpace(chr) && spaces' > 1)))
      && HasWordIn(buffer, cc, from, c + 1) == (visited || cc.IsWordChar(chr))
      && CountWhiteIn(buffer, cc, from, c + 1) == spaces'
  {
    ExtendRight(buffer, cc, from, c);
  }

  /** Scanning left, the scan passes no word stop. */
  lemma {:induction false} ScanLeftPassesNoStop(from: int, c: int, buffer: seq<char>, cc: CharClasses,
                                                visited: bool, spaces: nat)
    requires 0 <= c <= from <= |buffer|
    requires c < from ==> from < |buffer|
    requires visited == HasWordIn(buffer, cc, c + 1, from + 1)
    requires spaces == CountWhiteIn(buffer, cc, c + 1, from + 1)
    requires forall q :: c < q <= from ==> !IsWordStop(buffer, cc, from, q, -1)
    ensures var r := WordScan(c, -1, buffer, cc, visited, spaces);
      forall q :: r <= q <= from ==> !IsWordStop(buffer, cc, from, q, -1)
    decreases c
  {
    if 0 < c < |buffer| {
      var chr := buffer[c];
      var spaces' := if cc.isWhiteSpace(chr) then spaces + 1 else spaces;
      var visited' := visited || cc.IsWordChar(chr);
      var stop := !cc.IsWordChar(chr) && (visited || (!cc.isWhiteSpace(chr) && spaces' > 1));
      LeftStep(from, c, buffer, cc, visited, spaces);
      ScanStep(c, -1, buffer, cc, visited, spaces);
      if !stop {
        ScanLeftPassesNoStop(from, c - 1, buffer, cc, visited', spaces');
      }
    }
  }

  /** Scanning left, the scan ends just after a word stop, on offset 0, or
      where it started when that is the buffer's end. */
  lemma {:induction false} ScanLeftEndsAtStop(from: int, c: int, buffer: seq<char>, cc: CharClasses,
                                              visited: bool, spaces: nat)
    requires 0 <= c <= from <= |buffer|
    requires c < from ==> from < |buffer|
    requires visited == HasWordIn(buffer, cc, c + 1, from + 1)
    requires spaces == CountWhiteIn(buffer, cc, c + 1, from + 1)
    ensures var r := WordScan(c, -1, buffer, cc, visited, spaces);
      r == 0 || (from == |buffer| && r == from) || IsWordStop(buffer, cc, from, r - 1, -1)
    decreases c
  {
    if 0 < c < |buffer| {
      var chr := buffer[c];
      var spaces' := if cc.isWhiteSpace(chr) then spaces + 1 else spaces;
      var visited' := visited || cc.IsWordChar(chr);
      var stop := !cc.IsWordChar(chr) && (visited || (!cc.isWhiteSpace(chr) && spaces' > 1));
      LeftStep(from, c, buffer, cc, visited, spaces);
      ScanStep(c, -1, buffer, cc, visited, spaces);
      if !stop {
        ScanLeftEndsAtStop(from, c - 1, buffer, cc, visited', spaces');
      }
    }
  }

  /** One iteration of the scanning loop at an inner offset: it either
      breaks there or carries on with the updated flags. */
  lemma ScanStep(c: int, dir: int, buffer: seq<char>, cc: CharClasses, visited: bool, spaces: nat)
    requires dir == 1 || dir == -1
    requires 0 < c < |buffer|
    ensures var chr := buffer[c];
      var spaces' := if cc.isWhiteSpace(chr) then spaces + 1 else spaces;
      WordScan(c, dir, buffer, cc, visited, spaces)
      == if !cc.IsWordChar(chr) && (visited || (!cc.isWhiteSpace(chr) && spaces' > 1)) then
           (if dir < 0 then c + 1 else c)
         else WordScan(c + dir, dir, buffer, cc, visited || cc.IsWordChar(chr), spaces')
  {
  }

  /** One step of the leftward scan: the visited offset is a word stop
      exactly when the loop breaks there, and the carried flags extend. */
  lemma LeftStep(from: int, c: int, buffer: seq<char>, cc: CharClasses, visited: bool, spaces: nat)
    requires 0 < c <= from < |buffer|
    requires visited == HasWordIn(buffer, cc, c + 1, from + 1)
    requires spaces == CountWhiteIn(buffer, cc, c + 1, from + 1)
    ensures var chr := buffer[c];
      var spaces' := if cc.isWhiteSpace(chr) then spaces + 1 else spaces;
      && (IsWordStop(buffer, cc, from, c, -1)
          <==> !cc.IsWordChar(chr) && (visited || (!cc.isWhiteSpace(chr) && spaces' > 1)))
      && HasWordIn(buffer, cc, c, from + 1) == (visited || cc.IsWordChar(chr))
      && CountWhiteIn(buffer, cc, c, from + 1) == spaces'
  {
  }

  /** A word jump lands on the first word stop in its direction from the
      neighbouring offset, or on the buffer's edge when none lies between. */
  lemma {:induction false} WordJumpStopsAtFirstBoundary(caret: int, dir: int, buffer: seq<char>, cc: CharClasses)
    requires dir == 1 || dir == -1
    ensures var from := Clamp(caret + dir, 0, |buffer|);
      var r := FindEndOfWordOrSpacesSequence(caret, dir, buffer, cc);
      && (dir > 0 ==>
            && (forall q :: from <= q < r ==> !IsWordStop(buffer, cc, from, q, dir))
            && (r == |buffer| || (from == 0 && r == 0) || IsWordStop(buffer, cc, from, r, dir)))
      && (dir < 0 ==>
            && (forall q :: r <= q <= from ==> !IsWordStop(buffer, cc, from, q, dir))
            && (r == 0 || (from == |buffer| && r == from) || IsWordStop(buffer, cc, from, r - 1, dir)))
  {
    var from := Clamp(caret + dir, 0, |buffer|);
    if dir > 0 {
      ScanRightPassesNoStop(from, from, buffer, cc, false, 0);
      ScanRightEndsAtStop(from, from, buffer, cc, false, 0);
    } else {
      ScanLeftPassesNoStop(from, from, buffer, cc, false, 0);
      ScanLeftEndsAtStop(from, from, buffer, cc, false, 0);
    }
  }

  /** The two-spaces rule on two small buffers: after one space the jump
      runs on through a comma into the next word, after two it stops at the
      comma. */
  lemma TwoSpacesStopAtPunctuation(cc: CharClasses)
    requires cc.isWhiteSpace(' ') && !cc.IsWordChar(' ')
    requires !cc.isWhiteSpace(',') && !cc.IsWordChar(',')
    requires cc.IsWordChar('x') && !cc.isWhiteSpace('x')
    ensures FindEndOfWordOrSpacesSequence(0, 1, "x ,x", cc) == 4
    ensures FindEndOfWordOrSpacesSequence(0, 1, "x  ,x", cc) == 3
  {
  }

  /** Left and right arrows. An unselecting move with a selection only
      collapses it to the edge in the move's direction; otherwise the caret
      jumps to the line end, to the word end, or by one character. The caret
      is clamped to the buffer; a selecting move keeps the selection's anchor
      fixed, any other move drops the selection. The flag reports whether
      anything changed. */
  function MoveCaretHorizontal(s: State, buffer: seq<char>, lines: seq<Line>, dir: int,
                               cmd: set<CommandFlag>, cc: CharClasses): (r: Result<(State, bool)>)
    requires dir == 1 || dir == -1
    ensures r.Err? <==> (s.selection == 0 || Select in cmd) && JumpEnd in cmd && |lines| == 0
    ensures r.Ok? ==> 0 <= r.value.0.caret <= |buffer|
    ensures r.Ok? && Select in cmd ==> r.value.0.Anchor() == s.Anchor()
    ensures r.Ok? && Select !in cmd ==> r.value.0.selection == 0
    ensures r.Ok? && Select !in cmd && s.selection != 0 ==>
      r.value.0.caret == Clamp(if dir < 0 then s.SelMin() else s.SelMax(), 0, |buffer|)
    ensures r.Ok? && (s.selection == 0 || Select in cmd) && JumpEnd in cmd ==>
      r.value.0.caret == Clamp(FindEndOfLine(s.caret, dir, buffer, lines).value, 0, |buffer|)
    ensures r.Ok? && (s.selection == 0 || Select in cmd) && JumpEnd !in cmd && JumpWord in cmd ==>
      r.value.0.caret == FindEndOfWordOrSpacesSequence(s.caret, dir, buffer, cc)
    ensures r.Ok? && (s.selection == 0 || Select in cmd) && JumpEnd !in cmd && JumpWord !in cmd ==>
      r.value.0.caret == Clamp(s.caret + dir, 0, |buffer|)
    ensures r.Ok? ==> (r.value.1 <==> r.value.0 != s)
  {
    var target: Result<int> :=
      if s.selection != 0 && Select !in cmd then
        Ok(if dir < 0 then Min(s.caret + s.selection, s.caret) else Max(s.caret + s.selection, s.caret))
      else if JumpEnd in cmd then
        FindEndOfLine(s.caret, dir, buffer, lines)
      else if JumpWord in cmd then
        Ok(FindEndOfWordOrSpacesSequence(s.caret, dir, buffer, cc))
      else
        Ok(Max(s.caret + dir, 0));
    if target.Err? then
      Err(target.error)
    else
      var caret := Clamp(target.value, 0, |buffer|);
      var selection := if Select in cmd then s.selection + (s.caret - caret) else 0;
      var next := State(caret, selection);
      Ok((next, caret != s.caret || selection != s.selection))
  }

  /** Up and down arrows. The pixel geometry that finds the caret one line
      up or down is the `verticalTarget` oracle. A held word or line jump
      disables the move; otherwise the selection follows the same rule as
      for horizontal moves. */
  function MoveCaretVertical(s: State, dir: int, cmd: set<CommandFlag>,
                             verticalTarget: (int, int) -> int): (r: (State, bool))
    ensures JumpWord in cmd || JumpEnd in cmd ==> r == (s, false)
    ensures !(JumpWord in cmd || JumpEnd in cmd) ==> r.0.caret == verticalTarget(s.caret, dir)
    ensures Select in cmd ==> r.0.Anchor() == s.Anchor()
    ensures Select !in cmd && !(JumpWord in cmd || JumpEnd in cmd) ==> r.0.selection == 0
    ensures r.1 <==> r.0 != s
  {
    if JumpWord in cmd || JumpEnd in cmd then
      (s, false)
    else
      var caret := verticalTarget(s.caret, dir);
      var selection := if Select in cmd then s.selection + (s.caret - caret) else 0;
      (State(caret, selection), caret != s.caret || selection != s.selection)
  }

  /** Double click: selects the word around the caret, never reaching past
      the caret's line (nor onto the line break that ends a non-final line).
      The caret ends on the right edge. */
  function SelectWordOnTheSameLineAtCaret(s: State, lines: seq<Line>, buffer: seq<char>, cc: CharClasses): (r: Result<State>)
    ensures r.Err? <==> |lines| == 0
    ensures r.Ok? ==>
      var li := FindLineAtCaretPosition(s.caret, lines).0;
      var maxRight := lines[li].start + lines[li].count - (if li + 1 < |lines| then 1 else 0);
      && r.value.caret <= maxRight
      && r.value.Anchor() >= lines[li].start
      && r.value.caret <= FindEndOfWordOrSpacesSequence(s.caret, 1, buffer, cc)
      && r.value.Anchor() >= FindEndOfWordOrSpacesSequence(s.caret, -1, buffer, cc)
      && (r.value.caret == maxRight || r.value.caret == FindEndOfWordOrSpacesSequence(s.caret, 1, buffer, cc))
      && (r.value.Anchor() == lines[li].start
          || r.value.Anchor() == FindEndOfWordOrSpacesSequence(s.caret, -1, buffer, cc))
  {
    if |lines| == 0 then
      Err(IndexOutOfRange)
    else
      var li := FindLineAtCaretPosition(s.caret, lines).0;
      var maxLeft := lines[li].start;
      var maxRight := maxLeft + lines[li].count - (if li < |lines| - 1 then 1 else 0);
      var right := Min(maxRight, FindEndOfWordOrSpacesSequence(s.caret, 1, buffer, cc));
      var left := Max(maxLeft, FindEndOfWordOrSpacesSequence(s.caret, -1, buffer, cc));
      Ok(State(right, left - right))
  }

  /** On a layout tiling the buffer, the word selected by a double click is
      a proper range (anchor left of the caret) around the clicked offset
      and lies inside the clicked line. */
  lemma {:induction false} SelectWordWithinLine(s: State, lines: seq<Line>, buffer: seq<char>, cc: CharClasses)
    requires Tiles(lines, |buffer|)
    requires 0 <= s.caret <= |buffer|
    ensures SelectWordOnTheSameLineAtCaret(s, lines, buffer, cc).Ok?
    ensures var w := SelectWordOnTheSameLineAtCaret(s, lines, buffer, cc).value;
      var line := lines[FindLineAtCaretPosition(s.caret, lines).0];
      && line.start <= w.Anchor() <= s.caret <= w.caret <= line.start + line.count
      && w.selection <= 0
  {
    FoundLineContainsCaret(lines, |buffer|, s.caret);
  }

  /** Triple click: selects the caret's whole line, caret on its right end.
      An empty layout leaves the state as it is. */
  function SelectLineAtCaret(s: State, lines: seq<Line>): (r: State)
    ensures |lines| == 0 ==> r == s
    ensures |lines| > 0 ==>
      var line := lines[FindLineAtCaretPosition(s.caret, lines).0];
      r.SelMin() <= r.SelMax() && r.Anchor() == line.start && r.caret == line.start + line.count
  {
    if |lines| <= 0 then
      s
    else
      var line := lines[FindLineAtCaretPosition(s.caret, lines).0];
      var left := line.start;
      var right := left + line.count;
      State(right, left - right)
  }

  /** On a layout tiling the buffer, the text a triple click selects is
      exactly the caret's line and contains the caret. */
  lemma {:induction false} SelectLineSelectsLine(s: State, lines: seq<Line>, buffer: seq<char>)
    requires Tiles(lines, |buffer|)
    requires 0 <= s.caret <= |buffer|
    ensures var line := lines[FindLineAtCaretPosition(s.caret, lines).0];
      var sel := SelectLineAtCaret(s, lines);
      && 0 <= line.start <= line.start + line.count <= |buffer|
      && sel.SelMin() <= s.caret <= sel.SelMax()
      && GetSelectedText(sel, buffer) == Ok(buffer[line.start..line.start + line.count])
  {
    FoundLineContainsCaret(lines, |buffer|, s.caret);
    var li := FindLineAtCaretPosition(s.caret, lines).0;
    assert lines[li].start == CountBefore(lines, li);
    CountBeforeBounded(lines, |buffer|, li);
    var left, right := lines[li].start, lines[li].start + lines[li].count;
    var sel := SelectLineAtCaret(s, lines);
    assert sel == State(right, left - right);
    assert sel.SelMin() == left && sel.SelMax() == right;
    if left < right {
      assert GetSelectedText(sel, buffer) == Ok(buffer[left..right]);
    } else {
      assert buffer[left..right] == [];
    }
  }
}

=== FILE: circular_buffer.dfy ===
/** The fixed-capacity ring buffer behind event queues and history
    (`ImCircularBuffer<T>`).

    The ring is a value here: every mutating operation returns the new ring.
    Logically the ring holds `count` items; item `i` lives in slot
    `(head + i) % capacity`. Item 0 is the "back" of the ring and item
    `count - 1` its "front": `PushFront` appends, `PushBack` prepends, and
    either push overwrites the item at the opposite end once the ring is
    full. */
module CircularBuffer {
  import opened Wrappers
  import opened Numerics

  /** `slots` is the backing array, whose length is the capacity. */
  datatype Ring<T> = Ring(capacity: int, head: int, count: int, slots: seq<T>)

  /** The shape every constructor establishes and every operation keeps. */
  predicate Valid<T>(r: Ring<T>) {
    && r.capacity == |r.slots|
    && 0 <= r.count <= r.capacity
    && (r.capacity == 0 ==> r.head == 0)
    && (r.capacity > 0 ==> 0 <= r.head < r.capacity)
  }

  /** `(head + i) % cap` for the offsets a valid ring produces, written
      without the remainder. */
  function Slot(head: int, i: int, cap: int): (s: int)
    requires 0 <= head < cap && 0 <= i <= cap
    ensures 0 <= s < cap
  {
    if head + i < cap then head + i else head + i - cap
  }

  lemma SlotIsRemainder(head: int, i: int, cap: int)
    requires 0 <= head < cap && 0 <= i <= cap
    ensures Slot(head, i, cap) == (head + i) % cap
    ensures TruncRem(head + i, cap) == (head + i) % cap
  {
    var x := head + i;
    if x < cap {
      RemainderUnique(x, cap, 0, x);
    } else {
      RemainderUnique(x, cap, 1, x - cap);
    }
  }

  /** The items of the ring in logical order, from back to front. */
  function Items<T>(r: Ring<T>): (items: seq<T>)
    requires Valid(r)
    ensures |items| == r.count
  {
    seq(r.count, i requires 0 <= i < r.count => r.slots[Slot(r.head, i, r.capacity)])
  }

  /** `new ImCircularBuffer<T>(capacity)`: the backing array is filled with
      `fill`, standing for `default(T)`; a negative size is an overflow. */
  function New<T>(capacity: int, fill: T): (r: Result<Ring<T>>)
    ensures r.Err? <==> capacity < 0
    ensures r.Err? ==> r.error == Overflow
    ensures r.Ok? ==> Valid(r.value) && Items(r.value) == [] && r.value.capacity == capacity
  {
    if capacity < 0 then Err(Overflow)
    else Ok(Ring(capacity, 0, 0, seq(capacity, _ => fill)))
  }

  /** `new ImCircularBuffer<T>(array)`: an empty ring over the caller's array. */
  function FromArray<T>(backing: seq<T>): (r: Ring<T>)
    ensures Valid(r) && Items(r) == []
    ensures r.capacity == |backing| && r.slots == backing
  {
    Ring(|backing|, 0, 0, backing)
  }

  /** The array slot `Get` and `Set` address for `index`: C#'s `%` truncates,
      so a negative sum leaves a negative slot and the array access throws. */
  function SlotOf<T>(r: Ring<T>, index: int): Result<int>
    requires Valid(r)
  {
    if r.capacity == 0 then Err(DivideByZero)
    else
      var s := TruncRem(r.head + index, r.capacity);
      if s < 0 then Err(IndexOutOfRange) else Ok(s)
  }

  /** `Get(index)`: the item `index` places past the back, wrapping around
      the array. */
  function Get<T>(r: Ring<T>, index: int): (v: Result<T>)
    requires Valid(r)
    ensures r.capacity == 0 ==> v == Err(DivideByZero)
    ensures 0 <= index < r.count ==> v == Ok(Items(r)[index])
    ensures r.capacity > 0 && r.head + index >= 0 ==> v.Ok?
    ensures -r.capacity < r.head + index < 0 ==> v == Err(IndexOutOfRange)
  {
    ItemSlot(r, index);
    var s :- SlotOf(r, index);
    Ok(r.slots[s])
  }

  /** Item `index` of a valid ring lives where `Get` looks for it. */
  lemma ItemSlot<T>(r: Ring<T>, index: int)
    requires Valid(r)
    ensures 0 <= index < r.count ==>
      && Slot(r.head, index, r.capacity) == TruncRem(r.head + index, r.capacity)
      && Slot(r.head, index, r.capacity) == (r.head + index) % r.capacity
  {
    if 0 <= index < r.count {
      SlotIsRemainder(r.head, index, r.capacity);
    }
  }

  /** `Get` only sees the index modulo the capacity. */
  lemma {:induction false} GetWrapsAround<T>(r: Ring<T>, index: int)
    requires Valid(r) && r.capacity > 0 && index >= r.capacity
    ensures Get(r, index) == Get(r, index - r.capacity)
  {
    var x := r.head + index;
    RemainderShift(x - r.capacity, r.capacity);
  }

  /** The indexer `this[Index]`: an index from the start counts from the
      back, one from the end (`^k`) counts `k` back from one past the front. */
  function At<T>(r: Ring<T>, index: nat, fromEnd: bool): (v: Result<T>)
    requires Valid(r)
    ensures !fromEnd && index < r.count ==> v == Ok(Items(r)[index])
    ensures fromEnd && 1 <= index <= r.count ==> v == Ok(Items(r)[r.count - index])
    ensures r.capacity == 0 ==> v == Err(DivideByZero)
  {
    Get(r, if fromEnd then r.count - index else index)
  }

  /** `Set(index, value)`: overwrites the slot `Get(index)` reads. */
  function Set<T>(r: Ring<T>, index: int, value: T): (nr: Result<Ring<T>>)
    requires Valid(r)
    ensures nr.Err? <==> Get(r, index).Err?
    ensures nr.Err? ==> nr.error == Get(r, index).error
    ensures nr.Ok? ==>
      && Valid(nr.value)
      && nr.value.capacity == r.capacity && nr.value.head == r.head && nr.value.count == r.count
      && Get(nr.value, index) == Ok(value)
    ensures 0 <= index < r.count ==> nr.Ok? && Items(nr.value) == Items(r)[index := value]
  {
    var s :- SlotOf(r, index);
    var nr := Ring(r.capacity, r.head, r.count, r.slots[s := value]);
    ItemSlot(r, index);
    SetItems(r, index, value);
    Ok(nr)
  }

  lemma {:induction false} SetItems<T>(r: Ring<T>, index: int, value: T)
    requires Valid(r)
    ensures 0 <= index < r.count ==>
      var nr := Ring(r.capacity, r.head, r.count, r.slots[Slot(r.head, index, r.capacity) := value]);
      Valid(nr) && Items(nr) == Items(r)[index := value]
  {
    if 0 <= index < r.count {
      var nr := Ring(r.capacity, r.head, r.count, r.slots[Slot(r.head, index, r.capacity) := value]);
      forall i | 0 <= i < r.count
        ensures Items(nr)[i] == Items(r)[index := value][i]
      {
        SlotIsRemainder(r.head, i, r.capacity);
        SlotIsRemainder(r.head, index, r.capacity);
      }
    }
  }

  /** `Clear()`: forgets every item; the array keeps its contents. */
  function Clear<T>(r: Ring<T>): (nr: Ring<T>)
    requires Valid(r)
    ensures Valid(nr) && Items(nr) == []
    ensures nr.capacity == r.capacity && nr.slots == r.slots
  {
    Ring(r.capacity, 0, 0, r.slots)
  }

  /** The head `PushBack` moves to: one slot back, wrapping to the last slot. */
  lemma PreviousSlot(head: int, cap: int)
    requires 0 <= head < cap
    ensures var h := TruncRem(head - 1, cap);
      (if h < 0 then h + cap else h) == if head == 0 then cap - 1 else head - 1
  {
    if head == 0 && cap > 1 {
      assert 1 % cap == 1;
    }
  }

  /** `PushBack(value)`: puts `value` before the back item and returns the
      slot it went to; a full ring loses its front item. */
  function PushBack<T>(r: Ring<T>, value: T): (res: Result<(Ring<T>, int)>)
    requires Valid(r)
    ensures r.capacity == 0 <==> res.Err?
    ensures res.Err? ==> res.error == DivideByZero
    ensures res.Ok? ==>
      var (nr, slot) := res.value;
      && Valid(nr)
      && nr.capacity == r.capacity
      && nr.count == Min(r.count + 1, r.capacity)
      && Items(nr) == [value] + (if r.count < r.capacity then Items(r) else Items(r)[..r.count - 1])
      && 0 <= slot < nr.capacity && nr.slots[slot] == value
  {
    if r.capacity == 0 then Err(DivideByZero)
    else
      var h := TruncRem(r.head - 1, r.capacity);
      var head := if h < 0 then h + r.capacity else h;
      PreviousSlot(r.head, r.capacity);
      var count := if r.count < r.capacity then r.count + 1 else r.count;
      var nr := Ring(r.capacity, head, count, r.slots[head := value]);
      PushBackItems(r, nr, value);
      Ok((nr, head))
  }

  lemma {:induction false} PushBackItems<T>(r: Ring<T>, nr: Ring<T>, value: T)
    requires Valid(r) && r.capacity > 0
    requires nr.capacity == r.capacity
    requires nr.head == if r.head == 0 then r.capacity - 1 else r.head - 1
    requires nr.count == Min(r.count + 1, r.capacity)
    requires nr.slots == r.slots[nr.head := value]
    ensures Valid(nr)
    ensures Items(nr) == [value] + (if r.count < r.capacity then Items(r) else Items(r)[..r.count - 1])
  {
    var expected := [value] + (if r.count < r.capacity then Items(r) else Items(r)[..r.count - 1]);
    forall i | 0 <= i < nr.count
      ensures Items(nr)[i] == expected[i]
    {
      if i > 0 {
        assert Slot(nr.head, i, nr.capacity) == Slot(r.head, i - 1, r.capacity);
      }
    }
  }

  /** `TryPopBack(out value)`: removes and yields the back item. */
  function TryPopBack<T>(r: Ring<T>): (res: (Option<T>, Ring<T>))
    requires Valid(r)
    ensures r.count == 0 ==> res == (None, r)
    ensures r.count > 0 ==>
      && res.0 == Some(Items(r)[0])
      && Valid(res.1)
      && res.1.capacity == r.capacity
      && Items(res.1) == Items(r)[1..]
  {
    if r.count == 0 then (None, r)
    else
      var value := r.slots[r.head];
      var head := (r.head + 1) % r.capacity;
      SlotIsRemainder(r.head, 1, r.capacity);
      var nr := Ring(r.capacity, head, r.count - 1, r.slots);
      forall i | 0 <= i < nr.count
        ensures Items(nr)[i] == Items(r)[i + 1]
      {
        assert Slot(head, i, r.capacity) == Slot(r.head, i + 1, r.capacity);
      }
      (Some(value), nr)
  }

  /** `PushFront(value)`: puts `value` after the front item and returns the
      slot it went to; a full ring loses its back item. */
  function PushFront<T>(r: Ring<T>, value: T): (res: Result<(Ring<T>, int)>)
    requires Valid(r)
    ensures r.capacity == 0 <==> res.Err?
    ensures res.Err? ==> res.error == DivideByZero
    ensures res.Ok? ==>
      var (nr, slot) := res.value;
      && Valid(nr)
      && nr.capacity == r.capacity
      && nr.count == Min(r.count + 1, r.capacity)
      && Items(nr) == (if r.count < r.capacity then Items(r) else Items(r)[1..]) + [value]
      && 0 <= slot < nr.capacity && nr.slots[slot] == value
  {
    if r.capacity == 0 then Err(DivideByZero)
    else
      var index := (r.head + r.count) % r.capacity;
      SlotIsRemainder(r.head, r.count, r.capacity);
      SlotIsRemainder(r.head, 1, r.capacity);
      var nr :=
        if r.count == r.capacity then Ring(r.capacity, (r.head + 1) % r.capacity, r.count, r.slots[index := value])
        else Ring(r.capacity, r.head, r.count + 1, r.slots[index := value]);
      PushFrontItems(r, nr, value);
      Ok((nr, index))
  }

  lemma {:induction false} PushFrontItems<T>(r: Ring<T>, nr: Ring<T>, value: T)
    requires Valid(r) && r.capacity > 0
    requires nr.capacity == r.capacity
    requires nr.head == if r.count == r.capacity then Slot(r.head, 1, r.capacity) else r.head
    requires nr.count == Min(r.count + 1, r.capacity)
    requires nr.slots == r.slots[Slot(r.head, r.count, r.capacity) := value]
    ensures Valid(nr)
    ensures Items(nr) == (if r.count < r.capacity then Items(r) else Items(r)[1..]) + [value]
  {
    var expected := (if r.count < r.capacity then Items(r) else Items(r)[1..]) + [value];
    forall i | 0 <= i < nr.count
      ensures Items(nr)[i] == expected[i]
    {
      if r.count == r.capacity {
        assert Slot(nr.head, i, nr.capacity) == Slot(r.head, i + 1, r.capacity);
      }
    }
  }

  /** `TryPeekFront(out value)`: the front item, if any. */
  function TryPeekFront<T>(r: Ring<T>): (v: Option<T>)
    requires Valid(r)
    ensures r.count == 0 <==> v.None?
    ensures r.count > 0 ==> v == Some(Items(r)[r.count - 1])
  {
    if r.count == 0 then None
    else
      SlotIsRemainder(r.head, r.count - 1, r.capacity);
      Some(r.slots[(r.head + r.count - 1) % r.capacity])
  }

  /** `TryPopFront(out value)`: removes and yields the front item. */
  function TryPopFront<T>(r: Ring<T>): (res: (Option<T>, Ring<T>))
    requires Valid(r)
    ensures r.count == 0 ==> res == (None, r)
    ensures r.count > 0 ==>
      && res.0 == Some(Items(r)[r.count - 1])
      && Valid(res.1)
      && res.1.capacity == r.capacity
      && Items(res.1) == Items(r)[..r.count - 1]
  {
    if r.count == 0 then (None, r)
    else
      SlotIsRemainder(r.head, r.count - 1, r.capacity);
      var value := r.slots[(r.head + r.count - 1) % r.capacity];
      (Some(value), Ring(r.capacity, r.head, r.count - 1, r.slots))
  }

  /** Pushes every value of `vs` at the front, in order. */
  function PushAllFront<T>(r: Ring<T>, vs: seq<T>): (nr: Ring<T>)
    requires Valid(r) && r.capacity > 0
    ensures Valid(nr) && nr.capacity == r.capacity
    decreases |vs|
  {
    if vs == [] then r
    else PushAllFront(PushFront(r, vs[0]).value.0, vs[1..])
  }

  /** Used as a queue (push at the front, pop at the back), a ring with room
      for every value keeps them in arrival order behind what it held. */
  lemma {:induction false} QueueKeepsArrivalOrder<T>(r: Ring<T>, vs: seq<T>)
    requires Valid(r) && r.capacity > 0
    requires r.count + |vs| <= r.capacity
    ensures Items(PushAllFront(r, vs)) == Items(r) + vs
    decreases |vs|
  {
    if vs != [] {
      var next := PushFront(r, vs[0]).value.0;
      assert Items(next) == Items(r) + [vs[0]];
      QueueKeepsArrivalOrder(next, vs[1..]);
      assert Items(r) + [vs[0]] + vs[1..] == Items(r) + vs;
    }
  }

  /** Popping the back right after pushing it yields the pushed value and,
      when the ring had room, gives back the ring's items. */
  lemma PushBackThenPopBack<T>(r: Ring<T>, value: T)
    requires Valid(r) && r.capacity > 0
    ensures var nr := PushBack(r, value).value.0;
      && TryPopBack(nr).0 == Some(value)
      && (r.count < r.capacity ==> Items(TryPopBack(nr).1) == Items(r))
  {
    var nr := PushBack(r, value).value.0;
    assert Items(nr)[0] == value;
  }

  /** Popping the front right after pushing it yields the pushed value and,
      when the ring had room, gives back the ring's items. */
  lemma PushFrontThenPopFront<T>(r: Ring<T>, value: T)
    requires Valid(r) && r.capacity > 0
    ensures var nr := PushFront(r, value).value.0;
      && TryPopFront(nr).0 == Some(value)
      && (r.count < r.capacity ==> Items(TryPopFront(nr).1) == Items(r))
  {
    var nr := PushFront(r, value).value.0;
    assert Items(nr)[nr.count - 1] == value;
  }
}

=== FILE: color_hcl.dfy ===
/** The clamping setters of colours in the HCL space (`ImColorHcl`), with
    components as reals. Lightness lives in `[0, 100]` and alpha in
    `[0, 1]`; hue and chroma are carried along untouched. */
module ColorHcl {

  datatype Hcl = Hcl(hue: real, chroma: real, lightness: real, alpha: real)

  /** `Mathf.Clamp` on floats: the lower bound is tested first. */
  function ClampReal(v: real, lo: real, hi: real): (r: real)
    requires lo <= hi
    ensures lo <= r <= hi
    ensures lo <= v <= hi ==> r == v
    ensures v < lo ==> r == lo
    ensures v > hi ==> r == hi
  {
    if v < lo then lo else if v > hi then hi else v
  }

  /** `Mathf.Clamp01`. */
  function Clamp01(v: real): (r: real)
    ensures 0.0 <= r <= 1.0
    ensures 0.0 <= v <= 1.0 ==> r == v
  {
    ClampReal(v, 0.0, 1.0)
  }

  predicate InGamut(c: Hcl) {
    0.0 <= c.lightness <= 100.0 && 0.0 <= c.alpha <= 1.0
  }

  /** `AddLightness`. */
  function AddLightness(c: Hcl, lightness: real): (r: Hcl)
    ensures 0.0 <= r.lightness <= 100.0
    ensures r.hue == c.hue && r.chroma == c.chroma && r.alpha == c.alpha
    ensures 0.0 <= c.lightness + lightness <= 100.0 ==> r.lightness == c.lightness + lightness
    ensures r == SetLightness(c, c.lightness + lightness)
  {
    c.(lightness := ClampReal(c.lightness + lightness, 0.0, 100.0))
  }

  /** `SetLightness`. */
  function SetLightness(c: Hcl, lightness: real): (r: Hcl)
    ensures 0.0 <= r.lightness <= 100.0
    ensures r.hue == c.hue && r.chroma == c.chroma && r.alpha == c.alpha
    ensures 0.0 <= lightness <= 100.0 ==> r.lightness == lightness
  {
    c.(lightness := ClampReal(lightness, 0.0, 100.0))
  }

  /** `AddAlpha`. */
  function AddAlpha(c: Hcl, value: real): (r: Hcl)
    ensures 0.0 <= r.alpha <= 1.0
    ensures r.hue == c.hue && r.chroma == c.chroma && r.lightness == c.lightness
    ensures r == SetAlpha(c, c.alpha + value)
  {
    c.(alpha := Clamp01(c.alpha + value))
  }

  /** `MulAlpha`. */
  function MulAlpha(c: Hcl, value: real): (r: Hcl)
    ensures 0.0 <= r.alpha <= 1.0
    ensures r.hue == c.hue && r.chroma == c.chroma && r.lightness == c.lightness
    ensures r == SetAlpha(c, c.alpha * value)
  {
    c.(alpha := Clamp01(c.alpha * value))
  }

  /** `SetAlpha`. */
  function SetAlpha(c: Hcl, value: real): (r: Hcl)
    ensures 0.0 <= r.alpha <= 1.0
    ensures r.hue == c.hue && r.chroma == c.chroma && r.lightness == c.lightness
    ensures 0.0 <= value <= 1.0 ==> r.alpha == value
  {
    c.(alpha := Clamp01(value))
  }

  /** Setting the lightness twice is setting it once. */
  lemma SetLightnessIdempotent(c: Hcl, lightness: real)
    ensures SetLightness(SetLightness(c, lightness), lightness) == SetLightness(c, lightness)
  {
  }

  /** Adding no lightness leaves a colour with a lightness in range as it is;
      likewise adding no alpha and multiplying alpha by one. */
  lemma NeutralAdjustments(c: Hcl)
    requires InGamut(c)
    ensures AddLightness(c, 0.0) == c
    ensures AddAlpha(c, 0.0) == c
    ensures MulAlpha(c, 1.0) == c
  {
  }

  /** Every setter keeps a colour in gamut. */
  lemma SettersStayInGamut(c: Hcl, x: real)
    requires InGamut(c)
    ensures InGamut(AddLightness(c, x)) && InGamut(SetLightness(c, x))
    ensures InGamut(AddAlpha(c, x)) && InGamut(MulAlpha(c, x)) && InGamut(SetAlpha(c, x))
  {
  }
}

=== FILE: formatter.dfy ===
/** Span concatenation into freshly allocated text (`ImFormatter`).

    Each overload allocates a character span of exactly the total length and
    copies its arguments into it one after another. Allocation from the
    arena is modelled as a span of NUL characters, and .NET's integer
    formatting is a parameter. */
module Formatter {
  import opened Wrappers

  /** A freshly allocated span of `n` characters. */
  function Alloc(n: nat): (s: seq<char>)
    ensures |s| == n
  {
    seq(n, _ => '\0')
  }

  /** `src.CopyTo(dest[at..])`: overwrites `|src|` characters of `dest`
      starting at `at`, and throws when they do not fit. */
  function CopyTo(src: seq<char>, dest: seq<char>, at: nat): (r: Result<seq<char>>)
    requires at <= |dest|
    ensures r.Ok? <==> |src| <= |dest| - at
    ensures r.Err? ==> r.error == ArgumentInvalid
    ensures r.Ok? ==>
      && |r.value| == |dest|
      && r.value[..at] == dest[..at]
      && r.value[at..at + |src|] == src
      && r.value[at + |src|..] == dest[at + |src|..]
  {
    if |src| > |dest| - at then Err(ArgumentInvalid)
    else
      var out := dest[..at] + src + dest[at + |src|..];
      assert out[..at] == dest[..at];
      assert out[at..at + |src|] == src;
      Ok(out)
  }

  /** Copying a piece right after a filled prefix extends the prefix. */
  lemma {:induction false} CopyExtendsPrefix(filled: seq<char>, src: seq<char>, dest: seq<char>, at: nat)
    requires at == |filled| && at + |src| <= |dest|
    requires dest[..at] == filled
    ensures CopyTo(src, dest, at).Ok?
    ensures CopyTo(src, dest, at).value[..at + |src|] == filled + src
  {
    var out := CopyTo(src, dest, at).value;
    assert out[..at + |src|] == out[..at] + out[at..at + |src|];
  }

  /** `Concat(str0, str1)`. */
  method Concat2(s0: seq<char>, s1: seq<char>) returns (span: seq<char>)
    ensures span == s0 + s1
  {
    span := Alloc(|s0| + |s1|);
    var size := 0;
    CopyExtendsPrefix([], s0, span, size);
    span := CopyTo(s0, span, size).value;
    size := size + |s0|;
    CopyExtendsPrefix(s0, s1, span, size);
    span := CopyTo(s1, span, size).value;
    assert span == span[..|s0| + |s1|];
  }

  /** `Concat(str0, str1, str2)`. */
  method Concat3(s0: seq<char>, s1: seq<char>, s2: seq<char>) returns (span: seq<char>)
    ensures span == s0 + s1 + s2
  {
    span := Alloc(|s0| + |s1| + |s2|);
    var size := 0;
    CopyExtendsPrefix([], s0, span, size);
    span := CopyTo(s0, span, size).value;
    size := size + |s0|;
    CopyExtendsPrefix(s0, s1, span, size);
    span := CopyTo(s1, span, size).value;
    size := size + |s1|;
    CopyExtendsPrefix(s0 + s1, s2, span, size);
    span := CopyTo(s2, span, size).value;
    assert span == span[..size + |s2|];
  }

  /** `Concat(str0, str1, str2, str3)`. */
  method Concat4(s0: seq<char>, s1: seq<char>, s2: seq<char>, s3: seq<char>) returns (span: seq<char>)
    ensures span == s0 + s1 + s2 + s3
  {
    span := Alloc(|s0| + |s1| + |s2| + |s3|);
    var size := 0;
    CopyExtendsPrefix([], s0, span, size);
    span := CopyTo(s0, span, size).value;
    size := size + |s0|;
    CopyExtendsPrefix(s0, s1, span, size);
    span := CopyTo(s1, span, size).value;
    size := size + |s1|;
    CopyExtendsPrefix(s0 + s1, s2, span, size);
    span := CopyTo(s2, span, size).value;
    size := size + |s2|;
    CopyExtendsPrefix(s0 + s1 + s2, s3, span, size);
    span := CopyTo(s3, span, size).value;
    assert span == span[..size + |s3|];
  }

  /** `Concat(str0, str1, str2, str3, str4)`. */
  method Concat5(s0: seq<char>, s1: seq<char>, s2: seq<char>, s3: seq<char>, s4: seq<char>) returns (span: seq<char>)
    ensures span == s0 + s1 + s2 + s3 + s4
  {
    span := Alloc(|s0| + |s1| + |s2| + |s3| + |s4|);
    var size := 0;
    CopyExtendsPrefix([], s0, span, size);
    span := CopyTo(s0, span, size).value;
    size := size + |s0|;
    CopyExtendsPrefix(s0, s1, span, size);
    span := CopyTo(s1, span, size).value;
    size := size + |s1|;
    CopyExtendsPrefix(s0 + s1, s2, span, size);
    span := CopyTo(s2, span, size).value;
    size := size + |s2|;
    CopyExtendsPrefix(s0 + s1 + s2, s3, span, size);
    span := CopyTo(s3, span, size).value;
    size := size + |s3|;
    CopyExtendsPrefix(s0 + s1 + s2 + s3, s4, span, size);
    span := CopyTo(s4, span, size).value;
    assert span == span[..size + |s4|];
  }

  /** `n` copies of `s` back to back. */
  function Repeat(s: seq<char>, n: nat): seq<char> {
    if n == 0 then [] else Repeat(s, n - 1) + s
  }

  lemma {:induction false} RepeatLength(s: seq<char>, n: nat)
    ensures |Repeat(s, n)| == n * |s|
  {
    if n > 0 {
      RepeatLength(s, n - 1);
    }
  }

  /** One more copy still fits in the copies of a larger count. */
  lemma {:induction false} RepeatGrows(s: seq<char>, i: nat, n: nat)
    requires i < n
    ensures |Repeat(s, i)| + |s| <= |Repeat(s, n)|
    decreases n
  {
    if i + 1 < n {
      RepeatGrows(s, i, n - 1);
    }
  }

  /** `ConcatDuplicate(str0, str1, repeat)`: `str0` followed by `repeat`
      copies of `str1`, none when `repeat` is negative. */
  method ConcatDuplicate(s0: seq<char>, s1: seq<char>, repeat: int) returns (span: seq<char>)
    ensures repeat <= 0 ==> span == s0
    ensures repeat > 0 ==> span == s0 + Repeat(s1, repeat)
    ensures |span| == |s0| + |s1| * (if repeat < 0 then 0 else repeat)
  {
    var times: nat := if repeat < 0 then 0 else repeat;
    span := Alloc(|s0| + |s1| * times);
    RepeatLength(s1, times);
    var size := 0;
    CopyExtendsPrefix([], s0, span, size);
    span := CopyTo(s0, span, size).value;
    size := size + |s0|;
    var i := 0;
    while i < repeat
      invariant 0 <= i <= times
      invariant |span| == |s0| + |Repeat(s1, times)|
      invariant size == |s0| + |Repeat(s1, i)| <= |span|
      invariant span[..size] == s0 + Repeat(s1, i)
    {
      RepeatGrows(s1, i, times);
      CopyExtendsPrefix(s0 + Repeat(s1, i), s1, span, size);
      span := CopyTo(s1, span, size).value;
      size := size + |s1|;
      i := i + 1;
    }
    assert span == span[..size];
  }

  /** `Format(long)`: the value's text when it fits the 512-character
      scratch span, empty otherwise. */
  function FormatLong(value: int, text: int -> seq<char>): (r: seq<char>)
    ensures |text(value)| <= 512 ==> r == text(value)
    ensures |text(value)| > 512 ==> r == []
    ensures |r| <= 512
  {
    if |text(value)| <= 512 then text(value) else []
  }

  /** `Concat(str, int)`: the string followed by the value's text. */
  method ConcatInt(s: seq<char>, value: int, text: int -> seq<char>) returns (span: seq<char>)
    ensures span == s + FormatLong(value, text)
    ensures |text(value)| <= 512 ==> span == s + text(value)
  {
    var valueSpan := FormatLong(value, text);
    span := Alloc(|s| + |valueSpan|);
    var size := 0;
    CopyExtendsPrefix([], s, span, size);
    span := CopyTo(s, span, size).value;
    size := size + |s|;
    CopyExtendsPrefix(s, valueSpan, span, size);
    span := CopyTo(valueSpan, span, size).value;
    assert span == span[..size + |valueSpan|];
  }
}

=== FILE: group.dfy ===
/** Groups of adjacent controls (`ImGroup`) and the corner rounding they
    imply (`ImGroupUtility.Apply`).

    A group splits a rectangle into `count` items from left to right. Each
    item learns which neighbours it touches, so that shared edges overlap by
    a border and shared corners are drawn square. `ImRect.TakeLeft` is not
    part of this model: how a rectangle gives up a strip on its left is a
    parameter. Floats are modelled as reals. */
module Group {

  datatype Rect = Rect(x: real, y: real, w: real, h: real)

  /** A strip width as the source computes it in `float`: dividing by a
      zero item count gives an infinity or NaN, not an exception. */
  datatype Width = Finite(value: real) | NonFinite

  /** `ImRect.TakeLeft(width, out rest)`: the strip taken and what remains. */
  type TakeLeft = (Rect, Width) -> (Rect, Rect)

  datatype ItemFlag = AdjacentToLeft | AdjacentToRight

  datatype Item = Item(rect: Rect, flags: set<ItemFlag>)

  /** The group's progress: items handed out so far, the rectangle still to
      split, and a one-shot width for the next item (0 when unset). */
  datatype Group = Group(count: int, index: int, rest: Rect, nextSize: real)

  /** Half the border width by which adjacent items overlap. */
  const HalfBorder: real := 0.5

  /** `new ImGroup(gui, rect, count)`. */
  function NewGroup(rect: Rect, count: int): (g: Group)
    ensures g.count == count && g.index == 0 && g.rest == rect && g.nextSize == 0.0
  {
    Group(count, 0, rect, 0.0)
  }

  /** `SetNextSize(size)`. */
  function SetNextSize(g: Group, size: real): (ng: Group)
    ensures ng == g.(nextSize := size)
  {
    g.(nextSize := size)
  }

  /** The width `GetNext` asks for: the one-shot size when positive, else an
      even share of what is left among the items still to come. */
  function RequestedWidth(g: Group): (w: Width)
    ensures g.nextSize > 0.0 ==> w == Finite(g.nextSize)
    ensures g.nextSize <= 0.0 && g.index < g.count ==>
      w.Finite? && w.value * (g.count - g.index) as real == g.rest.w
    ensures w.NonFinite? <==> g.nextSize <= 0.0 && g.count == g.index
  {
    if g.nextSize > 0.0 then Finite(g.nextSize)
    else if g.count - g.index == 0 then NonFinite
    else Finite(g.rest.w / (g.count - g.index) as real)
  }

  /** `GetNext()`: takes the requested strip off the left, widens it by half
      a border towards each neighbour (moving it left for a left neighbour),
      flags the neighbours, advances the index and forgets the one-shot
      size. */
  function GetNext(g: Group, takeLeft: TakeLeft): (res: (Item, Group))
    ensures var (item, ng) := res;
      var (taken, rest) := takeLeft(g.rest, RequestedWidth(g));
      && (AdjacentToLeft in item.flags <==> g.index > 0)
      && (AdjacentToRight in item.flags <==> g.index < g.count - 1)
      && item.rect.y == taken.y && item.rect.h == taken.h
      && item.rect.x == taken.x - (if g.index > 0 then HalfBorder else 0.0)
      && item.rect.w == taken.w + HalfBorder * |item.flags| as real
      && ng == Group(g.count, g.index + 1, rest, 0.0)
  {
    var (taken, rest) := takeLeft(g.rest, RequestedWidth(g));
    var right := g.index < g.count - 1;
    var left := g.index > 0;
    var flags := (if right then {AdjacentToRight} else {}) + (if left then {AdjacentToLeft} else {});
    var rect := Rect(
      taken.x - (if left then HalfBorder else 0.0),
      taken.y,
      taken.w + (if right then HalfBorder else 0.0) + (if left then HalfBorder else 0.0),
      taken.h);
    (Item(rect, flags), Group(g.count, g.index + 1, rest, 0.0))
  }

  /** The flags the item at position `k` of an `n`-item group carries. */
  function ExpectedFlags(k: int, n: int): set<ItemFlag> {
    (if k > 0 then {AdjacentToLeft} else {}) + (if k < n - 1 then {AdjacentToRight} else {})
  }

  /** The next `k` items of a group, in order, and the group after them. */
  function Run(g: Group, takeLeft: TakeLeft, k: nat): (res: (seq<Item>, Group))
    ensures |res.0| == k
    decreases k
  {
    if k == 0 then ([], g)
    else
      var (item, ng) := GetNext(g, takeLeft);
      var (items, last) := Run(ng, takeLeft, k - 1);
      ([item] + items, last)
  }

  /** Taking every item of a fresh group flags exactly the inner neighbours:
      the first item has no left neighbour, the last no right one, and
      every other item has both; the index ends at the count. */
  lemma {:induction false} RunFlagsNeighbours(g: Group, takeLeft: TakeLeft, k: nat)
    requires g.index >= 0
    ensures var (items, last) := Run(g, takeLeft, k);
      && last.index == g.index + k
      && last.count == g.count
      && forall j :: 0 <= j < k ==> items[j].flags == ExpectedFlags(g.index + j, g.count)
    decreases k
  {
    if k > 0 {
      var (item, ng) := GetNext(g, takeLeft);
      RunFlagsNeighbours(ng, takeLeft, k - 1);
      var (items, last) := Run(g, takeLeft, k);
      assert items == [item] + Run(ng, takeLeft, k - 1).0;
      assert item.flags == ExpectedFlags(g.index, g.count);
      forall j | 1 <= j < k
        ensures items[j].flags == ExpectedFlags(g.index + j, g.count)
      {
        assert items[j] == Run(ng, takeLeft, k - 1).0[j - 1];
      }
    }
  }

  /** A size set by `SetNextSize` is used for exactly one item: the item
      after it is back to an even share of the rest. */
  lemma NextSizeAppliesOnce(g: Group, size: real, takeLeft: TakeLeft)
    requires size > 0.0
    requires g.index + 1 < g.count
    ensures var g1 := SetNextSize(g, size);
      && RequestedWidth(g1) == Finite(size)
      && var g2 := GetNext(g1, takeLeft).1;
      RequestedWidth(g2).Finite?
      && RequestedWidth(g2).value * (g.count - g.index - 1) as real == g2.rest.w
  {
  }

  /** `ImRectRadius`: one radius per corner. */
  datatype RectRadius = RectRadius(topLeft: real, topRight: real, bottomRight: real, bottomLeft: real)

  /** `ImGroupUtility.Apply`: squares the corners an item shares with its
      neighbours and keeps the others. */
  function Apply(radius: RectRadius, flags: set<ItemFlag>): (r: RectRadius)
    ensures AdjacentToLeft in flags ==> r.topLeft == 0.0 && r.bottomLeft == 0.0
    ensures AdjacentToLeft !in flags ==> r.topLeft == radius.topLeft && r.bottomLeft == radius.bottomLeft
    ensures AdjacentToRight in flags ==> r.topRight == 0.0 && r.bottomRight == 0.0
    ensures AdjacentToRight !in flags ==> r.topRight == radius.topRight && r.bottomRight == radius.bottomRight
  {
    var r := if AdjacentToLeft in flags then radius.(topLeft := 0.0, bottomLeft := 0.0) else radius;
    if AdjacentToRight in flags then r.(topRight := 0.0, bottomRight := 0.0) else r
  }

  /** Applying the same flags twice squares nothing more. */
  lemma ApplyIdempotent(radius: RectRadius, flags: set<ItemFlag>)
    ensures Apply(Apply(radius, flags), flags) == Apply(radius, flags)
  {
  }

  /** In a group of `n >= 2` items only the group's outer corners stay
      round: the first item keeps its left corners, the last its right
      corners, and every corner between two items is square. */
  lemma {:induction false} GroupKeepsOuterCorners(radius: RectRadius, k: int, n: int)
    requires n >= 2 && 0 <= k < n
    ensures var r := Apply(radius, ExpectedFlags(k, n));
      && (k == 0 ==> r.topLeft == radius.topLeft && r.bottomLeft == radius.bottomLeft
                     && r.topRight == 0.0 && r.bottomRight == 0.0)
      && (k == n - 1 ==> r.topRight == radius.topRight && r.bottomRight == radius.bottomRight
                         && r.topLeft == 0.0 && r.bottomLeft == 0.0)
      && (0 < k < n - 1 ==> r == RectRadius(0.0, 0.0, 0.0, 0.0))
  {
    var flags := ExpectedFlags(k, n);
    assert (AdjacentToLeft in flags) == (k > 0);
    assert (AdjacentToRight in flags) == (k < n - 1);
  }
}

=== FILE: keyboard_commands.dfy ===
/** Mapping of a key press plus modifier keys to editing commands
    (`ImKeyboardCommandsHelper`), with one table for macOS and one for every
    other operating-system family. */
module KeyboardCommands {

  /** Unity's `EventModifiers` flags. */
  datatype Modifier = Shift | Control | Alt | Command | Numeric | CapsLock | FunctionKey

  /** The `ImKeyboardCommandFlag` bits; a command is a set of them. */
  datatype CommandFlag = Select | JumpWord | SelectAll | Copy | Paste | Cut | JumpEnd

  /** The operating-system family; the host reports it. */
  datatype OsFamily = MacOSX | Windows | Linux | Other

  datatype KeyEventType = NoEvent | Down | Up

  /** A keyboard event: its kind, Unity key code, held modifiers and the
      character it produces (`'\0'` when none). */
  datatype KeyEvent = KeyEvent(kind: KeyEventType, key: int, modifiers: set<Modifier>, chr: char)

  // Unity `KeyCode` values used by the editing engine.
  const KeyBackspace := 8
  const KeyA := 97
  const KeyC := 99
  const KeyV := 118
  const KeyX := 120
  const KeyDelete := 127
  const KeyUpArrow := 273
  const KeyDownArrow := 274
  const KeyRightArrow := 275
  const KeyLeftArrow := 276

  /** Key codes 273..276 are the four arrow keys. */
  predicate IsArrow(key: int) {
    KeyUpArrow <= key <= KeyLeftArrow
  }

  /** The clipboard commands bound to A, C, V and X under `modifier`. */
  function ClipboardCommands(key: int, held: bool): set<CommandFlag> {
    (if held && key == KeyA then {SelectAll} else {}) +
    (if held && key == KeyC then {Copy} else {}) +
    (if held && key == KeyV then {Paste} else {}) +
    (if held && key == KeyX then {Cut} else {})
  }

  /** The macOS table: Command+arrow jumps to the line end, Option+arrow
      jumps a word, and Command is the clipboard modifier. */
  function CommandMacOS(evt: KeyEvent): (r: (bool, set<CommandFlag>))
    ensures r.0 <==> r.1 != {}
    ensures JumpEnd in r.1 <==> IsArrow(evt.key) && Command in evt.modifiers && Alt !in evt.modifiers
    ensures JumpWord in r.1 <==> IsArrow(evt.key) && Alt in evt.modifiers && Command !in evt.modifiers
    ensures Select in r.1 <==> IsArrow(evt.key) && Shift in evt.modifiers
    ensures SelectAll in r.1 <==> Command in evt.modifiers && evt.key == KeyA
    ensures Copy in r.1 <==> Command in evt.modifiers && evt.key == KeyC
    ensures Paste in r.1 <==> Command in evt.modifiers && evt.key == KeyV
    ensures Cut in r.1 <==> Command in evt.modifiers && evt.key == KeyX
  {
    var arrow := IsArrow(evt.key);
    var option := Alt in evt.modifiers;
    var command := Command in evt.modifiers;
    var shift := Shift in evt.modifiers;
    var jump :=
      if arrow && command && !option then {JumpEnd}
      else if arrow && !command && option then {JumpWord}
      else {};
    var select := if arrow && shift then {Select} else {};
    var result := jump + select + ClipboardCommands(evt.key, command);
    (result != {}, result)
  }

  /** The table for every other family: Control+arrow jumps a word, there is
      no line-end jump, and Control is the clipboard modifier. */
  function CommandGeneric(evt: KeyEvent): (r: (bool, set<CommandFlag>))
    ensures r.0 <==> r.1 != {}
    ensures JumpEnd !in r.1
    ensures JumpWord in r.1 <==> IsArrow(evt.key) && Control in evt.modifiers
    ensures Select in r.1 <==> IsArrow(evt.key) && Shift in evt.modifiers
    ensures SelectAll in r.1 <==> Control in evt.modifiers && evt.key == KeyA
    ensures Copy in r.1 <==> Control in evt.modifiers && evt.key == KeyC
    ensures Paste in r.1 <==> Control in evt.modifiers && evt.key == KeyV
    ensures Cut in r.1 <==> Control in evt.modifiers && evt.key == KeyX
  {
    var arrow := IsArrow(evt.key);
    var control := Control in evt.modifiers;
    var select := if arrow && Shift in evt.modifiers then {Select} else {};
    var jump := if arrow && control then {JumpWord} else {};
    var result := select + jump + ClipboardCommands(evt.key, control);
    (result != {}, result)
  }

  /** Picks the macOS table exactly when the host is macOS. */
  function TryGetCommand(os: OsFamily, evt: KeyEvent): (r: (bool, set<CommandFlag>))
    ensures os == MacOSX ==> r == CommandMacOS(evt)
    ensures os != MacOSX ==> r == CommandGeneric(evt)
  {
    if os == MacOSX then CommandMacOS(evt) else CommandGeneric(evt)
  }

  /** The modifier that turns A, C, V and X into clipboard commands. */
  function PlatformModifier(os: OsFamily): Modifier {
    if os == MacOSX then Command else Control
  }

  /** On both tables the caret-movement flags only ever come from arrow keys. */
  lemma MovementFlagsOnlyOnArrows(os: OsFamily, evt: KeyEvent)
    requires !IsArrow(evt.key)
    ensures var cmd := TryGetCommand(os, evt).1;
      Select !in cmd && JumpWord !in cmd && JumpEnd !in cmd
  {
  }

  /** On both tables Shift plus an arrow adds Select, and the clipboard
      commands follow the platform modifier. */
  lemma PlatformTablesAgree(os: OsFamily, evt: KeyEvent)
    ensures var cmd := TryGetCommand(os, evt).1;
      var held := PlatformModifier(os) in evt.modifiers;
      && (Select in cmd <==> IsArrow(evt.key) && Shift in evt.modifiers)
      && (SelectAll in cmd <==> held && evt.key == KeyA)
      && (Copy in cmd <==> held && evt.key == KeyC)
      && (Paste in cmd <==> held && evt.key == KeyV)
      && (Cut in cmd <==> held && evt.key == KeyX)
  {
  }

  /** With both Command and Option held, a macOS arrow neither jumps a word
      nor jumps to the line end. */
  lemma MacOSBothModifiersNoJump(evt: KeyEvent)
    requires IsArrow(evt.key) && Command in evt.modifiers && Alt in evt.modifiers
    ensures JumpWord !in CommandMacOS(evt).1 && JumpEnd !in CommandMacOS(evt).1
  {
  }
}

=== FILE: numeric_edit.dfy ===
/** The value model behind the numeric edit control (`ImNumericEdit`):
    the tagged `NumberValue`, its parse, clamp, convert, format and add
    operations, and the fixed 64-character `EditBuffer` the control edits.

    Only `Int32` and `Single` values are implemented by the source; every
    other tag either fails to parse or throws `NotImplementedException`.
    `Single` values are modelled as exact reals, and .NET's culture-aware
    parsing and formatting are passed in as functions. */
module NumericEdit {
  import opened Wrappers
  import opened Numerics

  datatype NumberType = Byte | Int16 | Int32 | Int64 | Single | Double

  /** `NumberType.IsInteger()`: the four integral types. */
  function IsInteger(t: NumberType): (b: bool)
    ensures b <==> !(t.Single? || t.Double?)
  {
    t.Byte? || t.Int16? || t.Int32? || t.Int64?
  }

  /** A value tagged with its type; only the field matching the tag is
      meaningful. */
  datatype NumberValue = NumberValue(kind: NumberType, valueInt32: int32, valueSingle: real)

  /** `default(NumberValue)`: the first tag, `Byte`, with both fields zero. */
  const DefaultValue: NumberValue := NumberValue(Byte, 0, 0.0)

  /** `new NumberValue(Int32)` and the implicit conversion from `Int32`. */
  function FromInt32(v: int32): (r: NumberValue)
    ensures r.kind == Int32 && r.valueInt32 == v && r.valueSingle == 0.0
  {
    NumberValue(Int32, v, 0.0)
  }

  /** `new NumberValue(Single)` and the implicit conversion from `Single`. */
  function FromSingle(v: real): (r: NumberValue)
    ensures r.kind == Single && r.valueSingle == v && r.valueInt32 == 0
  {
    NumberValue(Single, 0, v)
  }

  /** The private `new NumberValue(NumberType)`: zero of the given type. */
  function Zero(t: NumberType): (r: NumberValue)
    ensures r.kind == t && r.valueInt32 == 0 && r.valueSingle == 0.0
  {
    NumberValue(t, 0, 0.0)
  }

  /** .NET's number parsers: `Single.TryParse` under the German and the
      invariant culture, and `Int32.TryParse` under the invariant culture. */
  datatype Parsers = Parsers(
    singleGerman: seq<char> -> Option<real>,
    singleInvariant: seq<char> -> Option<real>,
    int32Invariant: seq<char> -> Option<int32>)

  /** `NumberValue.TryParse`: the empty text is zero of any type; otherwise
      only `Single` (German culture first, so a comma may separate decimals)
      and `Int32` parse, and a failure yields the default value. */
  function TryParse(t: NumberType, span: seq<char>, p: Parsers): (r: (bool, NumberValue))
    ensures |span| == 0 ==> r == (true, Zero(t))
    ensures |span| > 0 && !(t.Single? || t.Int32?) ==> r == (false, DefaultValue)
    ensures !r.0 ==> r.1 == DefaultValue
    ensures |span| > 0 && t.Int32? ==>
      (r.0 <==> p.int32Invariant(span).Some?)
      && (r.0 ==> r.1 == FromInt32(p.int32Invariant(span).value))
    ensures |span| > 0 && t.Single? ==>
      (r.0 <==> p.singleGerman(span).Some? || p.singleInvariant(span).Some?)
      && (p.singleGerman(span).Some? ==> r.1 == FromSingle(p.singleGerman(span).value))
      && (p.singleGerman(span).None? && r.0 ==> r.1 == FromSingle(p.singleInvariant(span).value))
    ensures r.0 ==> r.1.kind == t
  {
    if |span| == 0 then (true, Zero(t))
    else
      match t
      case Single =>
        if p.singleGerman(span).Some? then (true, FromSingle(p.singleGerman(span).value))
        else if p.singleInvariant(span).Some? then (true, FromSingle(p.singleInvariant(span).value))
        else (false, DefaultValue)
      case Int32 =>
        if p.int32Invariant(span).Some? then (true, FromInt32(p.int32Invariant(span).value))
        else (false, DefaultValue)
      case _ => (false, DefaultValue)
  }

  /** `NumberValue.IsValid`: non-empty text that parses as the type. */
  function IsValid(t: NumberType, span: seq<char>, p: Parsers): (b: bool)
    ensures |span| == 0 ==> !b
    ensures b ==> t.Int32? || t.Single?
    ensures |span| > 0 ==> (b <==> TryParse(t, span, p).0)
  {
    |span| > 0 && TryParse(t, span, p).0
  }

  /** `Math.Clamp`: throws when the bounds are inverted, else tests the lower
      bound first. */
  function MathClamp(v: int, lo: int, hi: int): (r: Result<int>)
    ensures r.Err? <==> lo > hi
    ensures r.Err? ==> r.error == ArgumentInvalid
    ensures r.Ok? ==> lo <= r.value <= hi
    ensures r.Ok? && lo <= v <= hi ==> r.value == v
  {
    if lo > hi then Err(ArgumentInvalid) else Ok(Clamp(v, lo, hi))
  }

  function MathClampReal(v: real, lo: real, hi: real): (r: Result<real>)
    ensures r.Err? <==> lo > hi
    ensures r.Err? ==> r.error == ArgumentInvalid
    ensures r.Ok? ==> lo <= r.value <= hi
    ensures r.Ok? && lo <= v <= hi ==> r.value == v
  {
    if lo > hi then Err(ArgumentInvalid)
    else if v < lo then Ok(lo)
    else if v > hi then Ok(hi)
    else Ok(v)
  }

  /** `NumberValue.Clamp`: clamps the field the value's tag selects,
      reading the same field of the bounds whatever their tags. */
  function ClampValue(value: NumberValue, min: NumberValue, max: NumberValue): (r: Result<NumberValue>)
    ensures !(value.kind.Int32? || value.kind.Single?) ==> r == Err(NotImplemented)
    ensures value.kind.Int32? ==>
      (r.Ok? <==> min.valueInt32 <= max.valueInt32)
      && (r.Ok? ==> min.valueInt32 <= r.value.valueInt32 <= max.valueInt32
                    && r.value == value.(valueInt32 := r.value.valueInt32))
    ensures value.kind.Single? ==>
      (r.Ok? <==> min.valueSingle <= max.valueSingle)
      && (r.Ok? ==> min.valueSingle <= r.value.valueSingle <= max.valueSingle
                    && r.value == value.(valueSingle := r.value.valueSingle))
    ensures r.Err? ==> r.error == NotImplemented || r.error == ArgumentInvalid
  {
    match value.kind
    case Int32 =>
      var v :- MathClamp(value.valueInt32 as int, min.valueInt32 as int, max.valueInt32 as int);
      Ok(value.(valueInt32 := v as int32))
    case Single =>
      var v :- MathClampReal(value.valueSingle, min.valueSingle, max.valueSingle);
      Ok(value.(valueSingle := v))
    case _ => Err(NotImplemented)
  }

  /** Clamping a value already within its bounds changes nothing, and
      clamping twice is clamping once. */
  lemma ClampIdempotent(value: NumberValue, min: NumberValue, max: NumberValue)
    requires ClampValue(value, min, max).Ok?
    ensures ClampValue(ClampValue(value, min, max).value, min, max) == ClampValue(value, min, max)
  {
  }

  /** `NumberValue.AsDouble`. */
  function AsDouble(v: NumberValue): (r: Result<real>)
    ensures !(v.kind.Int32? || v.kind.Single?) <==> r == Err(NotImplemented)
    ensures v.kind.Int32? ==> r == Ok(v.valueInt32 as real)
    ensures v.kind.Single? ==> r == Ok(v.valueSingle)
  {
    match v.kind
    case Int32 => Ok(v.valueInt32 as real)
    case Single => Ok(v.valueSingle)
    case _ => Err(NotImplemented)
  }

  /** Converting a constructed value back to a double gives what it was
      built from. */
  lemma AsDoubleOfConstructed(i: int32, s: real)
    ensures AsDouble(FromInt32(i)) == Ok(i as real)
    ensures AsDouble(FromSingle(s)) == Ok(s)
  {
  }

  /** .NET's `TryFormat` for the two implemented types, as the text each
      value formats to; it succeeds when that text fits the span. */
  datatype Formatters = Formatters(int32Text: int32 -> seq<char>, singleText: real -> seq<char>)

  /** `NumberValue.Format(span)`: the text written into a span of `room`
      characters, empty when it does not fit; its length is the count the
      source returns. */
  function Format(v: NumberValue, room: nat, f: Formatters): (r: Result<seq<char>>)
    ensures !(v.kind.Int32? || v.kind.Single?) <==> r == Err(NotImplemented)
    ensures r.Ok? ==> |r.value| <= room
    ensures v.kind.Int32? ==>
      r == Ok(if |f.int32Text(v.valueInt32)| <= room then f.int32Text(v.valueInt32) else [])
    ensures v.kind.Single? ==>
      r == Ok(if |f.singleText(v.valueSingle)| <= room then f.singleText(v.valueSingle) else [])
  {
    match v.kind
    case Int32 =>
      var text := f.int32Text(v.valueInt32);
      Ok(if |text| <= room then text else [])
    case Single =>
      var text := f.singleText(v.valueSingle);
      Ok(if |text| <= room then text else [])
    case _ => Err(NotImplemented)
  }

  /** A real truncated toward zero, as a C# cast to an integer does. */
  function Truncate(x: real): (n: int)
    ensures Abs(n) as real <= (if x < 0.0 then -x else x)
    ensures x >= 0.0 ==> n as real <= x < n as real + 1.0
    ensures x < 0.0 ==> n as real - 1.0 < x <= n as real
  {
    if x >= 0.0 then x.Floor else -((-x).Floor)
  }

  /** `NumberValue.Add(double)`: an `Int32` adds the delta cast to `Int32`,
      wrapping on overflow; `outOfRange` is what the runtime produces for a
      cast whose truncated value does not fit, which C# leaves unspecified.
      A `Single` adds the delta exactly. */
  function Add(v: NumberValue, delta: real, outOfRange: int32): (r: Result<NumberValue>)
    ensures !(v.kind.Int32? || v.kind.Single?) <==> r == Err(NotImplemented)
    ensures v.kind.Single? ==> r == Ok(v.(valueSingle := v.valueSingle + delta))
    ensures v.kind.Int32? ==> r.Ok? && r.value.kind == Int32 && r.value.valueSingle == v.valueSingle
    ensures v.kind.Int32? && Int32Min <= Truncate(delta) <= Int32Max
                          && Int32Min <= v.valueInt32 as int + Truncate(delta) <= Int32Max ==>
      r.value.valueInt32 as int == v.valueInt32 as int + Truncate(delta)
  {
    match v.kind
    case Int32 =>
      var t := Truncate(delta);
      var step: int32 := if Int32Min <= t <= Int32Max then t as int32 else outOfRange;
      Ok(v.(valueInt32 := WrapAdd(v.valueInt32, step)))
    case Single => Ok(v.(valueSingle := v.valueSingle + delta))
    case _ => Err(NotImplemented)
  }

  /** Adding a whole number of steps and then the same number back restores
      an `Int32` value, wrap-around included. */
  lemma {:induction false} AddThenSubtract(v: NumberValue, steps: int32, outOfRange: int32)
    requires v.kind.Int32?
    requires steps as int != Int32Min
    ensures var once := Add(v, steps as real, outOfRange).value;
      Add(once, -(steps as real), outOfRange) == Ok(v)
  {
    var once := Add(v, steps as real, outOfRange).value;
    assert Truncate(steps as real) == steps as int;
    assert Truncate(-(steps as real)) == -(steps as int);
    var back := Add(once, -(steps as real), outOfRange).value;
    var total := back.valueInt32 as int - v.valueInt32 as int;
    assert total % 0x1_0000_0000 == 0 by {
      var a := once.valueInt32 as int - (v.valueInt32 as int + steps as int);
      var b := back.valueInt32 as int - (once.valueInt32 as int - steps as int);
      assert a % 0x1_0000_0000 == 0 && b % 0x1_0000_0000 == 0;
      assert total == a + b;
    }
    assert -0x1_0000_0000 < total < 0x1_0000_0000;
  }

  /** Capacity of the control's edit buffer. */
  const BufferLength: nat := 64

  /** `EditBuffer`: a fixed block of 64 characters of which the first
      `count` are the text being edited. */
  datatype EditBuffer = EditBuffer(block: seq<char>, count: int)

  predicate ValidEditBuffer(eb: EditBuffer) {
    |eb.block| == BufferLength && 0 <= eb.count <= BufferLength
  }

  /** The edited text. */
  function Text(eb: EditBuffer): seq<char>
    requires ValidEditBuffer(eb)
  {
    eb.block[..eb.count]
  }

  /** `EditBuffer.Populate(ReadOnlySpan<char>)`: copies the span to the start
      of the block; a span longer than the block does not fit and the copy
      throws before anything is written. */
  function Populate(eb: EditBuffer, span: seq<char>): (r: Result<EditBuffer>)
    requires ValidEditBuffer(eb)
    ensures r.Err? <==> |span| > BufferLength
    ensures r.Err? ==> r.error == ArgumentInvalid
    ensures r.Ok? ==>
      && ValidEditBuffer(r.value)
      && Text(r.value) == span
      && r.value.block[|span|..] == eb.block[|span|..]
  {
    if |span| > BufferLength then Err(ArgumentInvalid)
    else
      var block := span + eb.block[|span|..];
      assert block[..|span|] == span;
      Ok(EditBuffer(block, |span|))
  }

  /** `EditBuffer.Populate(NumberValue)`: formats the value into the block. */
  function PopulateValue(eb: EditBuffer, v: NumberValue, f: Formatters): (r: Result<EditBuffer>)
    requires ValidEditBuffer(eb)
    ensures r.Err? <==> !(v.kind.Int32? || v.kind.Single?)
    ensures r.Ok? ==> ValidEditBuffer(r.value) && Ok(Text(r.value)) == Format(v, BufferLength, f)
  {
    var text :- Format(v, BufferLength, f);
    Populate(eb, text)
  }

  /** With a parser that reads back what the formatter writes, a value put
      into the edit buffer parses back to itself, provided its text fits. */
  lemma {:induction false} PopulateThenParseInt32(eb: EditBuffer, i: int32, f: Formatters, p: Parsers)
    requires ValidEditBuffer(eb)
    requires forall x: int32 :: p.int32Invariant(f.int32Text(x)) == Some(x)
    requires 0 < |f.int32Text(i)| <= BufferLength
    ensures var r := PopulateValue(eb, FromInt32(i), f);
      r.Ok? && TryParse(Int32, Text(r.value), p) == (true, FromInt32(i))
  {
    var r := PopulateValue(eb, FromInt32(i), f);
    assert Text(r.value) == f.int32Text(i);
    assert p.int32Invariant(f.int32Text(i)) == Some(i);
  }
}

=== FILE: numerics.dfy ===
/** Integer helpers with the semantics of the .NET and Unity calls the
    source uses: `Math.Min`/`Math.Max`, `Mathf.Clamp` on integers, C#'s
    truncating `%`, and 32-bit signed wrap-around. */
module Numerics {

  function Min(a: int, b: int): int {
    if a < b then a else b
  }

  function Max(a: int, b: int): int {
    if a < b then b else a
  }

  /** `Mathf.Clamp(v, lo, hi)` on integers: the lower bound is tested first. */
  function Clamp(v: int, lo: int, hi: int): int {
    if v < lo then lo else if v > hi then hi else v
  }

  /** `Mathf.Abs` on integers. */
  function Abs(v: int): nat {
    if v < 0 then -v else v
  }

  /** C#'s `a % b`: the remainder takes the sign of the dividend. */
  function TruncRem(a: int, b: int): int
    requires b > 0
  {
    if a >= 0 then a % b else -((-a) % b)
  }

  const Int32Min: int := -0x8000_0000
  const Int32Max: int := 0x7FFF_FFFF

  /** A value of .NET's `Int32`. */
  newtype int32 = x: int | Int32Min <= x <= Int32Max

  /** Unchecked 32-bit addition: the mathematical sum wrapped into range. */
  function WrapAdd(a: int32, b: int32): (r: int32)
    ensures Int32Min <= a as int + b as int <= Int32Max ==> r as int == a as int + b as int
    ensures (r as int - (a as int + b as int)) % 0x1_0000_0000 == 0
  {
    var sum := (a as int + b as int - Int32Min) % 0x1_0000_0000 + Int32Min;
    sum as int32
  }
  lemma MulNonNegative(a: int, b: int)
    requires a >= 0 && b >= 0
    ensures a * b >= 0
  {}

  /** Euclidean remainder is determined by any quotient-remainder split. */
  lemma RemainderUnique(x: int, m: int, q: int, r: int)
    requires m > 0 && 0 <= r < m && x == q * m + r
    ensures x % m == r
  {
    var q' := x / m;
    var r' := x % m;
    assert (q - q') * m == r' - r;
    if q > q' {
      MulNonNegative(q - q' - 1, m);
    } else if q < q' {
      MulNonNegative(q' - q - 1, m);
    }
  }

  /** Adding the modulus does not change the remainder. */
  lemma RemainderShift(y: int, m: int)
    requires m > 0
    ensures (y + m) % m == y % m
  {
    RemainderUnique(y + m, m, y / m + 1, y % m);
  }
}

=== FILE: padding.dfy ===
/** Per-side padding of a rectangle (`ImPadding`), with sides as reals. */
module Padding {

  datatype Padding = Padding(left: real, right: real, top: real, bottom: real) {
    /** `Vertical`: the space taken up and down. */
    function Vertical(): real {
      top + bottom
    }

    /** `Horizontal`: the space taken left and right. */
    function Horizontal(): real {
      left + right
    }
  }

  /** `new ImPadding(padding)` and the implicit conversion from `float`. */
  function Uniform(padding: real): (p: Padding)
    ensures p.left == p.right == p.top == p.bottom == padding
  {
    Padding(padding, padding, padding, padding)
  }

  /** `Add(float)` and `operator +(ImPadding, float)`. */
  function AddValue(p: Padding, value: real): (r: Padding)
    ensures r.Horizontal() == p.Horizontal() + 2.0 * value
    ensures r.Vertical() == p.Vertical() + 2.0 * value
    ensures r == Plus(p, Uniform(value))
  {
    Padding(p.left + value, p.right + value, p.top + value, p.bottom + value)
  }

  /** `Add(in ImPadding)` and `operator +(ImPadding, in ImPadding)`. */
  function Plus(p: Padding, q: Padding): (r: Padding)
    ensures r.Horizontal() == p.Horizontal() + q.Horizontal()
    ensures r.Vertical() == p.Vertical() + q.Vertical()
  {
    Padding(p.left + q.left, p.right + q.right, p.top + q.top, p.bottom + q.bottom)
  }

  /** `operator -(ImPadding, float)`: adds the negated value. */
  function MinusValue(p: Padding, value: real): (r: Padding)
    ensures r == AddValue(p, -value)
    ensures AddValue(r, value) == p
  {
    AddValue(p, -value)
  }

  /** Unary `operator -`: negates every side. */
  function Negate(p: Padding): (r: Padding)
    ensures r.Horizontal() == -p.Horizontal() && r.Vertical() == -p.Vertical()
  {
    Padding(-p.left, -p.right, -p.top, -p.bottom)
  }

  /** Component-wise addition does not depend on the order of its operands. */
  lemma PlusCommutes(p: Padding, q: Padding)
    ensures Plus(p, q) == Plus(q, p)
  {
  }

  /** The negation is the additive inverse: adding it gives zero padding. */
  lemma NegateIsInverse(p: Padding)
    ensures Plus(p, Negate(p)) == Uniform(0.0)
    ensures Plus(Negate(p), p) == Uniform(0.0)
  {
  }

  /** Negating twice gives the padding back. */
  lemma NegateInvolution(p: Padding)
    ensures Negate(Negate(p)) == p
  {
  }

  /** Negation distributes over addition, so a difference of paddings is
      the sum with the negation. */
  lemma NegateDistributes(p: Padding, q: Padding)
    ensures Negate(Plus(p, q)) == Plus(Negate(p), Negate(q))
    ensures Negate(Uniform(1.0)) == Uniform(-1.0)
  {
  }
}

=== FILE: text_buffer.dfy ===
/** The character buffer behind a text-edit control (`ImTextEditBuffer`).

    A buffer starts as a borrowed, read-only view of the caller's text and
    turns itself into an owned copy on the first mutation. Arena allocation
    and capacity management are not modelled: the content is a `seq<char>`
    and ownership is a flag. */
module TextBuffer {
  import opened Wrappers
  import opened Numerics

  /** `chars` is the logical content, `maxLength` the cap (0 means unlimited),
      `owned` whether the buffer has been promoted to a mutable copy. */
  datatype Buffer = Buffer(chars: seq<char>, maxLength: int, owned: bool) {
    function Length(): nat {
      |chars|
    }
  }

  /** A buffer over a borrowed string or span; nothing is copied yet. */
  function FromSource(source: seq<char>, maxLength: int): (b: Buffer)
    ensures b.chars == source && b.Length() == |source|
    ensures b.maxLength == maxLength
    ensures !b.owned
  {
    Buffer(source, maxLength, false)
  }

  /** The length invariant a capped buffer is meant to keep. */
  predicate WithinCap(b: Buffer) {
    b.maxLength <= 0 || |b.chars| <= b.maxLength
  }

  /** Promotes the buffer to an owned copy and empties it. The capacity hint
      only sizes the allocation, so it does not appear here. */
  function Clear(b: Buffer): (r: Buffer)
    ensures r.chars == [] && r.owned
    ensures r.maxLength == b.maxLength
    ensures WithinCap(r)
  {
    Buffer([], b.maxLength, true)
  }

  /** Removes up to `count` characters at `pos`; `pos` must address an
      existing character, a non-positive count is a no-op, and a count that
      runs past the end is cut short. */
  function Remove(b: Buffer, pos: int, count: int): (r: Result<Buffer>)
    ensures r.Err? <==> pos < 0 || pos >= |b.chars|
    ensures r.Err? ==> r.error == ArgumentOutOfRange
    ensures r.Ok? && count < 1 ==> r.value == b
    ensures r.Ok? && count >= 1 ==>
      var n := Min(count, |b.chars| - pos);
      && 1 <= n
      && |r.value.chars| == |b.chars| - n
      && r.value.chars[..pos] == b.chars[..pos]
      && (forall i :: pos <= i < |r.value.chars| ==> r.value.chars[i] == b.chars[i + n])
      && r.value.owned
    ensures r.Ok? ==> r.value.maxLength == b.maxLength
    ensures r.Ok? ==> multiset(r.value.chars) <= multiset(b.chars)
    ensures r.Ok? && WithinCap(b) ==> WithinCap(r.value)
  {
    if pos < 0 || pos >= |b.chars| then
      Err(ArgumentOutOfRange)
    else if count < 1 then
      Ok(b)
    else
      var n := if pos + count > |b.chars| then |b.chars| - pos else count;
      assert n == Min(count, |b.chars| - pos) && 1 <= n;
      var kept := b.chars[..pos] + b.chars[pos + n..];
      RemovedFacts(b.chars, pos, n);
      var r := Buffer(kept, b.maxLength, true);
      assert |r.chars| == |b.chars| - n;
      Ok(r)
  }

  lemma RemovedFacts(s: seq<char>, pos: nat, n: nat)
    requires pos + n <= |s|
    ensures var kept := s[..pos] + s[pos + n..];
      && |kept| == |s| - n
      && kept[..pos] == s[..pos]
      && (forall i :: pos <= i < |kept| ==> kept[i] == s[i + n])
      && multiset(kept) <= multiset(s)
  {
    var kept := s[..pos] + s[pos + n..];
    assert s == s[..pos] + s[pos..pos + n] + s[pos + n..];
    assert multiset(s) == multiset(kept) + multiset(s[pos..pos + n]);
  }

  /** How many characters of an `n`-character insertion the buffer accepts
      when the count is computed as written in the source; it is negative
      when the buffer already holds more than a non-zero cap allows. */
  function RawAccepted(b: Buffer, n: nat): int {
    if b.maxLength == 0 then n else Min(n, b.maxLength - |b.chars|)
  }

  /** The content after inserting the first `count` characters of `span`. */
  function Spliced(chars: seq<char>, pos: nat, span: seq<char>, count: nat): seq<char>
    requires pos <= |chars| && count <= |span|
  {
    chars[..pos] + span[..count] + chars[pos..]
  }

  /** Insertion exactly as the source computes it: a negative accepted count
      is not caught and ends in a slicing exception. */
  function InsertAsWritten(b: Buffer, pos: int, span: seq<char>): (r: Result<(Buffer, int)>)
    ensures pos < 0 || pos > |b.chars| ==> r == Err(ArgumentOutOfRange)
    ensures 0 <= pos <= |b.chars| && RawAccepted(b, |span|) < 0 ==> r.Err?
    ensures r.Ok? ==> 0 <= r.value.1 <= |span|
  {
    if pos < 0 || pos > |b.chars| then
      Err(ArgumentOutOfRange)
    else
      var count := RawAccepted(b, |span|);
      if count == 0 then Ok((b, 0))
      else if count < 0 then Err(ArgumentOutOfRange)
      else Ok((Buffer(Spliced(b.chars, pos, span, count), b.maxLength, true), count))
  }

  /** Insertion with the accepted count clamped at zero, so a buffer that is
      already over its cap accepts nothing instead of throwing. */
  function Insert(b: Buffer, pos: int, span: seq<char>): (r: Result<(Buffer, int)>)
    ensures r.Err? <==> pos < 0 || pos > |b.chars|
    ensures r.Err? ==> r.error == ArgumentOutOfRange
    ensures r.Ok? ==>
      var (nb, count) := r.value;
      && 0 <= count <= |span|
      && (b.maxLength == 0 ==> count == |span|)
      && (b.maxLength != 0 && count < |span| ==> |nb.chars| >= b.maxLength)
      && (b.maxLength > 0 && count > 0 ==> |nb.chars| <= b.maxLength)
      && |nb.chars| == |b.chars| + count
      && nb.chars[..pos] == b.chars[..pos]
      && nb.chars[pos..pos + count] == span[..count]
      && nb.chars[pos + count..] == b.chars[pos..]
      && multiset(nb.chars) == multiset(b.chars) + multiset(span[..count])
      && nb.maxLength == b.maxLength
      && (count == 0 ==> nb == b)
      && (count > 0 ==> nb.owned)
    ensures r.Ok? && WithinCap(b) ==> WithinCap(r.value.0)
  {
    if pos < 0 || pos > |b.chars| then
      Err(ArgumentOutOfRange)
    else
      var count := Max(0, RawAccepted(b, |span|));
      if count == 0 then
        Ok((b, 0))
      else
        var chars := Spliced(b.chars, pos, span, count);
        assert b.chars == b.chars[..pos] + b.chars[pos..];
        assert chars[..pos] == b.chars[..pos];
        assert chars[pos..pos + count] == span[..count];
        assert chars[pos + count..] == b.chars[pos..];
        Ok((Buffer(chars, b.maxLength, true), count))
  }

  /** Removing what an insertion accepted restores the original content. */
  lemma {:induction false} InsertThenRemove(b: Buffer, pos: int, span: seq<char>)
    requires Insert(b, pos, span).Ok?
    requires Insert(b, pos, span).value.1 > 0
    ensures
      var (nb, count) := Insert(b, pos, span).value;
      Remove(nb, pos, count).Ok? && Remove(nb, pos, count).value.chars == b.chars
  {
    var (nb, count) := Insert(b, pos, span).value;
    assert 0 <= pos < |nb.chars| && |nb.chars| == |b.chars| + count;
    assert Min(count, |nb.chars| - pos) == count;
    var r := Remove(nb, pos, count).value;
    assert |r.chars| == |b.chars|;
    forall i | 0 <= i < |b.chars|
      ensures r.chars[i] == b.chars[i]
    {
      if i < pos {
        assert r.chars[..pos][i] == nb.chars[..pos][i] == b.chars[..pos][i];
      } else {
        assert r.chars[i] == nb.chars[i + count];
        assert nb.chars[pos + count..][i - pos] == b.chars[pos..][i - pos];
      }
    }
  }

  /** The as-written insertion throws on every in-range insertion into a
      buffer that is already longer than its non-zero cap, even of an empty
      span, where the corrected insertion accepts nothing. */
  lemma AsWrittenThrowsOverCap(b: Buffer, pos: int, span: seq<char>)
    requires 0 < b.maxLength < |b.chars|
    requires 0 <= pos <= |b.chars|
    ensures InsertAsWritten(b, pos, span).Err?
    ensures Insert(b, pos, span) == Ok((b, 0))
  {
  }

  /** The two insertions agree whenever the buffer respects its cap. */
  lemma {:induction false} AsWrittenAgreesWithinCap(b: Buffer, pos: int, span: seq<char>)
    requires b.maxLength >= 0 && WithinCap(b)
    ensures InsertAsWritten(b, pos, span) == Insert(b, pos, span)
  {
    if 0 <= pos <= |b.chars| {
      assert RawAccepted(b, |span|) >= 0;
    }
  }
}

=== FILE: text_edit.dfy ===
/** Edit operations of the text-edit control and its keyboard dispatcher
    (`ImTextEdit.Insert`, `Set`, `DeleteSelection`, `DeleteBackward`,
    `DeleteForward`, `PasteFromClipboard`, `HandleKeyboardEvent`), plus the
    handling of the platform text events `Set`, `Submit` and `Cancel`.

    Every operation takes the caret state and the buffer and returns the new
    pair; an exception the source would throw becomes an `Err`. */
module TextEdit {
  import opened Wrappers
  import opened Numerics
  import opened TextBuffer
  import opened TextLayout
  import opened KeyboardCommands
  import opened Caret

  /** The result of an edit: new state, new buffer, and whether the text
      changed. */
  datatype Edit = Edit(state: State, buffer: Buffer, changed: bool)

  /** The caret addresses an offset of the content, where an insertion can
      go. */
  predicate CaretInRange(s: State, b: Buffer) {
    0 <= s.caret <= |b.chars|
  }

  /** Inserts `text` at the caret and moves the caret past what the buffer
      accepted; an empty text is a no-op. */
  function Insert(s: State, b: Buffer, text: seq<char>): (r: Result<Edit>)
    ensures |text| == 0 ==> r == Ok(Edit(s, b, false))
    ensures |text| > 0 ==> (r.Err? <==> s.caret < 0 || s.caret > |b.chars|)
    ensures r.Ok? && |text| > 0 ==>
      var count := |r.value.buffer.chars| - |b.chars|;
      && 0 <= count <= |text|
      && r.value.state == State(s.caret + count, s.selection)
      && r.value.buffer.chars == b.chars[..s.caret] + text[..count] + b.chars[s.caret..]
      && (r.value.changed <==> count > 0)
      && (b.maxLength == 0 ==> count == |text|)
      && r.value.buffer.maxLength == b.maxLength
  {
    if |text| == 0 then
      Ok(Edit(s, b, false))
    else
      var (nb, added) :- TextBuffer.Insert(b, s.caret, text);
      assert nb.chars == nb.chars[..s.caret] + nb.chars[s.caret..s.caret + added] + nb.chars[s.caret + added..];
      Ok(Edit(State(s.caret + added, s.selection), nb, added > 0))
  }

  /** `Set` as the source writes it: replaces the whole content with `text`
      (cut to the cap when one is set), puts the caret at `|text|` and drops
      the selection. When the cap cuts the text short the caret lands past
      the end of the content. */
  function SetAsWritten(s: State, b: Buffer, text: seq<char>): (r: (State, Buffer))
    ensures r.0 == State(|text|, 0)
    ensures r.1.maxLength == b.maxLength && r.1.owned
    ensures |r.1.chars| <= |text| && r.1.chars == text[..|r.1.chars|]
    ensures b.maxLength == 0 ==> r.1.chars == text
    ensures b.maxLength > 0 ==> |r.1.chars| == Min(|text|, b.maxLength)
    ensures WithinCap(r.1)
  {
    var cleared := Clear(b);
    var (nb, _) := TextBuffer.Insert(cleared, 0, text).value;
    assert nb.chars == nb.chars[0..|nb.chars|];
    (State(|text|, 0), nb)
  }

  /** A text cut short by the cap leaves the caret past the end, and a
      direct insertion at that caret throws. (Inside the control the
      per-frame clamp pulls the caret back before the next key.) */
  lemma SetAsWrittenLeavesCaretPastEnd()
    ensures var (ns, nb) := SetAsWritten(State(0, 0), Buffer([], 2, true), "abc");
      && nb.chars == "ab" && ns.caret == 3
      && !CaretInRange(ns, nb)
      && Insert(ns, nb, "x").Err?
  {
    var (ns, nb) := SetAsWritten(State(0, 0), Buffer([], 2, true), "abc");
    assert |nb.chars| == 2 && nb.chars == "abc"[..2];
  }

  /** Replaces the whole content with `text` like `SetAsWritten`, but puts
      the caret at the end of what was kept. */
  function Set(s: State, b: Buffer, text: seq<char>): (r: (State, Buffer))
    ensures r.1 == SetAsWritten(s, b, text).1
    ensures r.0 == State(|r.1.chars|, 0)
    ensures CaretInRange(r.0, r.1)
    ensures b.maxLength == 0 || |text| <= b.maxLength ==> r == SetAsWritten(s, b, text)
  {
    var (_, nb) := SetAsWritten(s, b, text);
    (State(|nb.chars|, 0), nb)
  }

  /** Deletes the selected range, leaving the caret on its left edge. With
      no selection nothing happens; a left edge outside the buffer throws. */
  function DeleteSelection(s: State, b: Buffer): (r: Result<Edit>)
    ensures s.selection == 0 ==> r == Ok(Edit(s, b, false))
    ensures s.selection != 0 ==> (r.Err? <==> s.SelMin() < 0 || s.SelMin() >= |b.chars|)
    ensures r.Ok? && s.selection != 0 ==>
      && r.value.changed
      && r.value.state == State(s.SelMin(), 0)
      && r.value.buffer.chars == b.chars[..s.SelMin()] + b.chars[Min(s.SelMax(), |b.chars|)..]
      && r.value.buffer.maxLength == b.maxLength
      && multiset(r.value.buffer.chars) <= multiset(b.chars)
  {
    if s.selection == 0 then
      Ok(Edit(s, b, false))
    else
      var caret := if s.selection < 0 then s.caret + s.selection else s.caret;
      var nb :- Remove(b, caret, Abs(s.selection));
      SelectionRemoved(s, b, nb);
      Ok(Edit(State(caret, 0), nb, true))
  }

  /** Removing `|selection|` characters at the selection's left edge cuts
      out the selected range, clipped to the buffer. */
  lemma SelectionRemoved(s: State, b: Buffer, nb: Buffer)
    requires s.selection != 0
    requires Remove(b, s.SelMin(), Abs(s.selection)) == Ok(nb)
    ensures nb.chars == b.chars[..s.SelMin()] + b.chars[Min(s.SelMax(), |b.chars|)..]
    ensures nb.maxLength == b.maxLength
    ensures multiset(nb.chars) <= multiset(b.chars)
  {
    assert s.SelMax() == s.SelMin() + Abs(s.selection);
    RangeRemoved(b, nb, s.SelMin(), Abs(s.selection));
  }

  /** Removing `count >= 1` characters at `pos` cuts out `[pos, pos + count)`
      clipped to the buffer. */
  lemma RangeRemoved(b: Buffer, nb: Buffer, pos: int, count: int)
    requires count >= 1
    requires Remove(b, pos, count) == Ok(nb)
    ensures nb.chars == b.chars[..pos] + b.chars[Min(pos + count, |b.chars|)..]
  {
    assert 0 <= pos < |b.chars|;
    var n := Min(count, |b.chars| - pos);
    assert pos + n == Min(pos + count, |b.chars|);
    RemovedContent(b.chars, nb.chars, pos, n);
  }

  /** A removal described pointwise is the prefix joined to the suffix. */
  lemma RemovedContent(old_: seq<char>, new_: seq<char>, pos: nat, n: nat)
    requires pos + n <= |old_|
    requires |new_| == |old_| - n
    requires new_[..pos] == old_[..pos]
    requires forall i :: pos <= i < |new_| ==> new_[i] == old_[i + n]
    ensures new_ == old_[..pos] + old_[pos + n..]
  {
  }

  /** Backspace: deletes the selection if there is one, else the character
      before the caret; nothing happens at offset 0. */
  function DeleteBackward(s: State, b: Buffer): (r: Result<Edit>)
    ensures s.selection != 0 ==> r == DeleteSelection(s, b)
    ensures s.selection == 0 && s.caret <= 0 ==> r == Ok(Edit(s, b, false))
    ensures s.selection == 0 && 0 < s.caret <= |b.chars| ==>
      && r.Ok? && r.value.changed
      && r.value.state == State(s.caret - 1, 0)
      && r.value.buffer.chars == b.chars[..s.caret - 1] + b.chars[s.caret..]
    ensures s.selection == 0 && s.caret > |b.chars| ==> r.Err?
  {
    var d :- DeleteSelection(s, b);
    if d.changed then
      Ok(d)
    else if s.caret > 0 then
      var nb :- Remove(b, s.caret - 1, 1);
      RemovedContent(b.chars, nb.chars, s.caret - 1, 1);
      Ok(Edit(State(s.caret - 1, s.selection), nb, true))
    else
      Ok(Edit(s, b, false))
  }

  /** Delete: deletes the selection if there is one, else the character at
      the caret; nothing happens at the end of the buffer. */
  function DeleteForward(s: State, b: Buffer): (r: Result<Edit>)
    ensures s.selection != 0 ==> r == DeleteSelection(s, b)
    ensures s.selection == 0 && s.caret >= |b.chars| ==> r == Ok(Edit(s, b, false))
    ensures s.selection == 0 && 0 <= s.caret < |b.chars| ==>
      && r.Ok? && r.value.changed
      && r.value.state == s
      && r.value.buffer.chars == b.chars[..s.caret] + b.chars[s.caret + 1..]
    ensures s.selection == 0 && s.caret < 0 ==> r.Err?
  {
    var d :- DeleteSelection(s, b);
    if d.changed then
      Ok(d)
    else if s.caret < |b.chars| then
      var nb :- Remove(b, s.caret, 1);
      RemovedContent(b.chars, nb.chars, s.caret, 1);
      Ok(Edit(s, nb, true))
    else
      Ok(Edit(s, b, false))
  }

  /** `e` is `b` with the selection (clipped to the content) replaced by
      the first `n` characters of `text`, for the `n` the buffer accepted:
      the caret sits right after them, the selection is gone, and the edit
      reports a change exactly when `n > 0`. */
  predicate ReplacedSelection(s: State, b: Buffer, text: seq<char>, e: Edit) {
    var lo, hi := s.SelMin(), Min(s.SelMax(), |b.chars|);
    var n := |e.buffer.chars| - (|b.chars| - (hi - lo));
    && 0 <= lo <= hi
    && 0 <= n <= |text|
    && e.buffer.chars == b.chars[..lo] + text[..n] + b.chars[hi..]
    && e.state == State(lo + n, 0)
    && (e.changed <==> n > 0)
    && (b.maxLength == 0 ==> n == |text|)
    && e.buffer.maxLength == b.maxLength
  }

  /** Paste as the source writes it: with a non-empty clipboard, deletes the
      selection and inserts the clipboard text verbatim at the caret. The
      result is what the insertion reports; the deletion's own result is
      dropped. The insertion is the corrected one, so the error condition
      below is exact only for a buffer within a non-negative cap. */
  function PasteAsWritten(s: State, b: Buffer, clipboard: seq<char>): (r: Result<Edit>)
    ensures |clipboard| == 0 ==> r == Ok(Edit(s, b, false))
    ensures |clipboard| > 0 ==>
      (r.Err? <==> if s.selection != 0 then s.SelMin() < 0 || s.SelMin() >= |b.chars|
                   else s.caret < 0 || s.caret > |b.chars|)
    ensures r.Ok? && |clipboard| > 0 ==> ReplacedSelection(s, b, clipboard, r.value)
  {
    if |clipboard| == 0 then
      Ok(Edit(s, b, false))
    else
      var d :- DeleteSelection(s, b);
      var i := Insert(d.state, d.buffer, clipboard);
      if i.Ok? then
        DeleteThenInsertReplaces(s, b, clipboard, d, i.value);
        i
      else
        i
  }

  /** Deleting the selection and inserting a non-empty text at the caret
      left behind replaces the selection with the text. */
  lemma DeleteThenInsertReplaces(s: State, b: Buffer, text: seq<char>, d: Edit, i: Edit)
    requires |text| > 0
    requires DeleteSelection(s, b) == Ok(d)
    requires Insert(d.state, d.buffer, text) == Ok(i)
    ensures ReplacedSelection(s, b, text, i)
  {
    DeletedRemainder(s, b, d);
    InsertedText(d, text, i);
    PastedSplice(s, b, d, text, i);
  }

  /** What a successful deletion leaves: the content with the clipped
      selection cut out, and the caret on the selection's left edge. */
  lemma DeletedRemainder(s: State, b: Buffer, d: Edit)
    requires DeleteSelection(s, b) == Ok(d)
    requires s.selection == 0 ==> 0 <= s.caret <= |b.chars|
    ensures var lo, hi := s.SelMin(), Min(s.SelMax(), |b.chars|);
      && 0 <= lo <= hi <= |b.chars|
      && d.state == State(lo, 0)
      && d.buffer.chars == b.chars[..lo] + b.chars[hi..]
      && d.buffer.maxLength == b.maxLength
  {
    if s.selection == 0 {
      assert b.chars == b.chars[..s.caret] + b.chars[s.caret..];
    }
  }

  /** A successful insertion of a non-empty text, read off as the splice it
      makes. */
  lemma InsertedText(d: Edit, text: seq<char>, i: Edit)
    requires |text| > 0
    requires Insert(d.state, d.buffer, text) == Ok(i)
    ensures var n := |i.buffer.chars| - |d.buffer.chars|;
      && 0 <= n <= |text|
      && i.state == State(d.state.caret + n, d.state.selection)
      && i.buffer.chars == d.buffer.chars[..d.state.caret] + text[..n] + d.buffer.chars[d.state.caret..]
      && (i.changed <==> n > 0)
      && (d.buffer.maxLength == 0 ==> n == |text|)
      && i.buffer.maxLength == d.buffer.maxLength
  {
  }

  /** Inserting into the remainder of a deletion at its caret replaces the
      deleted selection. */
  lemma PastedSplice(s: State, b: Buffer, d: Edit, text: seq<char>, i: Edit)
    requires |text| > 0
    requires var lo, hi := s.SelMin(), Min(s.SelMax(), |b.chars|);
      && 0 <= lo <= hi <= |b.chars|
      && d.state == State(lo, 0)
      && d.buffer.chars == b.chars[..lo] + b.chars[hi..]
      && d.buffer.maxLength == b.maxLength
    requires var n := |i.buffer.chars| - |d.buffer.chars|;
      && 0 <= n <= |text|
      && i.state == State(d.state.caret + n, d.state.selection)
      && i.buffer.chars == d.buffer.chars[..d.state.caret] + text[..n] + d.buffer.chars[d.state.caret..]
      && (i.changed <==> n > 0)
      && (d.buffer.maxLength == 0 ==> n == |text|)
      && i.buffer.maxLength == d.buffer.maxLength
    ensures ReplacedSelection(s, b, text, i)
  {
    var lo, hi := s.SelMin(), Min(s.SelMax(), |b.chars|);
    assert |d.buffer.chars| == |b.chars| - (hi - lo);
    var n := |i.buffer.chars| - |d.buffer.chars|;
    SpliceOverRemoved(b.chars, lo, hi, text[..n]);
    assert i.buffer.chars == b.chars[..lo] + text[..n] + b.chars[hi..];
  }

  /** Splicing into a sequence with `[lo, hi)` cut out, at `lo`, replaces
      that range. */
  lemma SpliceOverRemoved(x: seq<char>, lo: int, hi: int, t: seq<char>)
    requires 0 <= lo <= hi <= |x|
    ensures var rest := x[..lo] + x[hi..];
      rest[..lo] + t + rest[lo..] == x[..lo] + t + x[hi..]
  {
    var rest := x[..lo] + x[hi..];
    assert rest[..lo] == x[..lo];
    assert rest[lo..] == x[hi..];
  }

  /** A paste that adds a line break: with no selection and no cap, pasting
      "\n" puts a line break into the content, whatever the mode. */
  lemma PasteAsWrittenAddsLineBreak(s: State, b: Buffer)
    requires s.selection == 0 && 0 <= s.caret <= |b.chars|
    requires b.maxLength == 0
    ensures PasteAsWritten(s, b, "\n").Ok?
    ensures !NoLineBreakAdded(b.chars, PasteAsWritten(s, b, "\n").value.buffer.chars)
  {
    var c := s.caret;
    var r := PasteAsWritten(s, b, "\n").value;
    assert r.buffer.chars == b.chars[..c] + "\n"[..1] + b.chars[c..];
    InsertedOneChar(b.chars, r.buffer.chars, c, '\n');
  }

  /** The clipboard text with its line breaks dropped. */
  function WithoutLineBreaks(text: seq<char>): (r: seq<char>)
    ensures '\n' !in r
    ensures |r| <= |text|
    ensures forall c :: c != '\n' ==> multiset(r)[c] == multiset(text)[c]
  {
    if |text| == 0 then []
    else
      assert text == [text[0]] + text[1..];
      if text[0] == '\n' then WithoutLineBreaks(text[1..])
      else [text[0]] + WithoutLineBreaks(text[1..])
  }

  /** A text without line breaks passes the filter unchanged. */
  lemma {:induction false} WithoutLineBreaksKeepsCleanText(text: seq<char>)
    requires '\n' !in text
    ensures WithoutLineBreaks(text) == text
  {
    if |text| > 0 {
      WithoutLineBreaksKeepsCleanText(text[1..]);
    }
  }

  /** Paste with the rule the typed-character branch applies: in
      single-line mode the clipboard's line breaks are dropped before the
      text goes in. In multi-line mode this is the source's paste. */
  function PasteFromClipboard(s: State, b: Buffer, clipboard: seq<char>, multiline: bool): (r: Result<Edit>)
    ensures multiline ==> r == PasteAsWritten(s, b, clipboard)
    ensures !multiline && '\n' !in clipboard ==> r == PasteAsWritten(s, b, clipboard)
    ensures r.Ok? && !multiline ==> NoLineBreakAdded(b.chars, r.value.buffer.chars)
  {
    if multiline then
      PasteAsWritten(s, b, clipboard)
    else
      FilteredPaste(s, b, clipboard);
      PasteAsWritten(s, b, WithoutLineBreaks(clipboard))
  }

  /** Pasting the filtered text adds no line break, and the filter is
      invisible on a text without any. */
  lemma FilteredPaste(s: State, b: Buffer, clipboard: seq<char>)
    ensures '\n' !in clipboard ==> WithoutLineBreaks(clipboard) == clipboard
    ensures var r := PasteAsWritten(s, b, WithoutLineBreaks(clipboard));
      r.Ok? ==> NoLineBreakAdded(b.chars, r.value.buffer.chars)
  {
    var text := WithoutLineBreaks(clipboard);
    if '\n' !in clipboard {
      WithoutLineBreaksKeepsCleanText(clipboard);
    }
    var r := PasteAsWritten(s, b, text);
    if r.Ok? && |text| > 0 {
      var lo, hi := s.SelMin(), Min(s.SelMax(), |b.chars|);
      var n := |r.value.buffer.chars| - (|b.chars| - (hi - lo));
      SpliceAddsNoLineBreak(b.chars, lo, hi, text[..n]);
    }
  }

  /** Splicing a text without line breaks over a range adds none. */
  lemma SpliceAddsNoLineBreak(x: seq<char>, lo: int, hi: int, t: seq<char>)
    requires 0 <= lo <= hi <= |x|
    requires '\n' !in t
    ensures NoLineBreakAdded(x, x[..lo] + t + x[hi..])
  {
    assert x == x[..lo] + x[lo..hi] + x[hi..];
    assert multiset(t)['\n'] == 0;
  }

  /** Deleting a selection and inserting the selected text back, in an
      uncapped buffer, restores the content and puts the caret on the
      selection's right edge. */
  lemma {:induction false} CutThenPasteRestores(s: State, b: Buffer)
    requires b.maxLength == 0
    requires s.selection != 0
    requires 0 <= s.SelMin() && s.SelMax() <= |b.chars|
    ensures GetSelectedText(s, b.chars).Ok?
    ensures DeleteSelection(s, b).Ok?
    ensures var d := DeleteSelection(s, b).value;
      var t := GetSelectedText(s, b.chars).value;
      && Insert(d.state, d.buffer, t).Ok?
      && Insert(d.state, d.buffer, t).value.buffer.chars == b.chars
      && Insert(d.state, d.buffer, t).value.state == State(s.SelMax(), 0)
  {
    var lo, hi := s.SelMin(), s.SelMax();
    var t := GetSelectedText(s, b.chars).value;
    assert t == b.chars[lo..hi] by {
      assert |t| == hi - lo;
      forall i | 0 <= i < |t| ensures t[i] == b.chars[lo..hi][i] {}
    }
    var d := DeleteSelection(s, b).value;
    var rest := b.chars[..lo] + b.chars[hi..];
    assert d.buffer.chars == rest;
    assert d.state == State(lo, 0);
    var i := Insert(d.state, d.buffer, t).value;
    assert i.buffer.chars == rest[..lo] + t[..|t|] + rest[lo..];
    SpliceRestores(b.chars, lo, hi);
  }

  /** Putting a cut-out range back where it was restores the sequence. */
  lemma SpliceRestores(x: seq<char>, lo: nat, hi: nat)
    requires lo <= hi <= |x|
    ensures var rest := x[..lo] + x[hi..];
      rest[..lo] + x[lo..hi][..hi - lo] + rest[lo..] == x
  {
    var rest := x[..lo] + x[hi..];
    assert rest[..lo] == x[..lo];
    assert rest[lo..] == x[hi..];
    assert x == x[..lo] + x[lo..hi] + x[hi..];
  }

  /** What handling one keyboard event produced: whether it was handled
      (and so consumed), whether the text changed, the new caret state and
      buffer, and the clipboard content afterwards. */
  datatype KeyOutcome = KeyOutcome(handled: bool, textChanged: bool, state: State, buffer: Buffer, clipboard: seq<char>)

  /** The inputs that stay fixed while one control handles its events. */
  datatype Context = Context(
    lines: seq<Line>,
    multiline: bool,
    editable: bool,
    os: OsFamily,
    cc: CharClasses,
    verticalTarget: (int, int) -> int)

  /** Whether the dispatcher reaches the command switch for this key: the
      arrows always take their own branch, Delete and Backspace only while
      editable. */
  predicate ReachesCommands(key: int, editable: bool) {
    && !IsArrow(key)
    && !(editable && (key == KeyDelete || key == KeyBackspace))
  }

  /** No line break was added to the content. */
  predicate NoLineBreakAdded(before: seq<char>, after: seq<char>) {
    multiset(after)['\n'] <= multiset(before)['\n']
  }

  /** The arrow-key branch: moves the caret, never touches the text. */
  function HandleArrow(ctx: Context, evt: KeyEvent, cmd: set<CommandFlag>, s: State, b: Buffer, clipboard: seq<char>): (r: Result<KeyOutcome>)
    requires IsArrow(evt.key)
    ensures r.Ok? ==> r.value.buffer == b && r.value.clipboard == clipboard && !r.value.textChanged
    ensures r.Ok? ==> (r.value.handled <==> r.value.state != s)
  {
    if evt.key == KeyLeftArrow || evt.key == KeyRightArrow then
      var dir := if evt.key == KeyLeftArrow then -1 else 1;
      var (ns, moved) :- MoveCaretHorizontal(s, b.chars, ctx.lines, dir, cmd, ctx.cc);
      Ok(KeyOutcome(moved, false, ns, b, clipboard))
    else
      var dir := if evt.key == KeyUpArrow then 1 else -1;
      var (ns, moved) := MoveCaretVertical(s, dir, cmd, ctx.verticalTarget);
      Ok(KeyOutcome(moved, false, ns, b, clipboard))
  }

  /** The printable-character branch: refuses the NUL character, a line
      break in single-line mode and any input while read-only; otherwise
      replaces the selection with the character. */
  function HandleTyped(ctx: Context, evt: KeyEvent, s: State, b: Buffer, clipboard: seq<char>): (r: Result<KeyOutcome>)
    ensures evt.chr == '\0' || (!ctx.multiline && evt.chr == '\n') || !ctx.editable ==>
      r == Ok(KeyOutcome(false, false, s, b, clipboard))
    ensures r.Ok? ==> r.value.clipboard == clipboard && r.value.handled == r.value.textChanged
    ensures r.Ok? && !ctx.multiline ==> NoLineBreakAdded(b.chars, r.value.buffer.chars)
  {
    if evt.chr == '\0' || (!ctx.multiline && evt.chr == '\n') || !ctx.editable then
      Ok(KeyOutcome(false, false, s, b, clipboard))
    else
      var d :- DeleteSelection(s, b);
      var i :- Insert(d.state, d.buffer, [evt.chr]);
      assert !ctx.multiline ==> NoLineBreakAdded(b.chars, i.buffer.chars) by {
        if !ctx.multiline && |i.buffer.chars| > |d.buffer.chars| {
          InsertedOneChar(d.buffer.chars, i.buffer.chars, d.state.caret, evt.chr);
        }
      }
      var changed := d.changed || i.changed;
      Ok(KeyOutcome(changed, changed, i.state, i.buffer, clipboard))
  }

  /** The command branch: an exact SelectAll, Cut, Copy or (editable)
      Paste command, else the printable-character branch. */
  function HandleCommand(ctx: Context, evt: KeyEvent, cmd: set<CommandFlag>, s: State, b: Buffer, clipboard: seq<char>): (r: Result<KeyOutcome>)
    ensures cmd == {SelectAll} ==> r == Ok(KeyOutcome(true, false, State(|b.chars|, -|b.chars|), b, clipboard))
    ensures cmd == {Copy} ==>
      r == (var t :- GetSelectedText(s, b.chars); Ok(KeyOutcome(true, false, s, b, t)))
    ensures cmd == {Cut} && r.Ok? ==>
      GetSelectedText(s, b.chars) == Ok(r.value.clipboard) && r.value.handled
    ensures r.Ok? && !ctx.editable ==> r.value.buffer == b
    ensures r.Ok? && r.value.textChanged ==> r.value.handled
    ensures r.Ok? && !ctx.multiline && !(ctx.editable && cmd == {Paste}) ==>
      NoLineBreakAdded(b.chars, r.value.buffer.chars)
  {
    if cmd == {SelectAll} then
      Ok(KeyOutcome(true, false, State(|b.chars|, -|b.chars|), b, clipboard))
    else if cmd == {Cut} then
      var text :- GetSelectedText(s, b.chars);
      if ctx.editable then
        var d :- DeleteSelection(s, b);
        Ok(KeyOutcome(true, d.changed, d.state, d.buffer, text))
      else
        Ok(KeyOutcome(true, false, s, b, text))
    else if cmd == {Copy} then
      var text :- GetSelectedText(s, b.chars);
      Ok(KeyOutcome(true, false, s, b, text))
    else if cmd == {Paste} && ctx.editable then
      var p :- PasteAsWritten(s, b, clipboard);
      Ok(KeyOutcome(p.changed, p.changed, p.state, p.buffer, clipboard))
    else
      HandleTyped(ctx, evt, s, b, clipboard)
  }

  /** One keyboard event. Only key-down events are handled. Arrows move the
      caret; Delete and Backspace delete while editable; otherwise an exact
      SelectAll, Cut, Copy or (editable) Paste command runs, and failing that
      a printable character replaces the selection while editable, except a
      line break in single-line mode. */
  function HandleKeyboardEvent(ctx: Context, evt: KeyEvent, s: State, b: Buffer, clipboard: seq<char>): (r: Result<KeyOutcome>)
    ensures evt.kind != Down ==> r == Ok(KeyOutcome(false, false, s, b, clipboard))
    ensures r.Ok? && !ctx.editable ==> r.value.buffer == b
    ensures r.Ok? && r.value.textChanged ==> r.value.handled
    ensures r.Ok? && IsArrow(evt.key) ==> r.value.buffer == b && r.value.clipboard == clipboard
    ensures evt.kind == Down && ReachesCommands(evt.key, ctx.editable)
            && TryGetCommand(ctx.os, evt).1 == {SelectAll} ==>
      r == Ok(KeyOutcome(true, false, State(|b.chars|, -|b.chars|), b, clipboard))
    ensures r.Ok? && !ctx.multiline && !(ctx.editable && TryGetCommand(ctx.os, evt).1 == {Paste}) ==>
      NoLineBreakAdded(b.chars, r.value.buffer.chars)
  {
    if evt.kind != Down then
      Ok(KeyOutcome(false, false, s, b, clipboard))
    else
      var cmd := TryGetCommand(ctx.os, evt).1;
      if IsArrow(evt.key) then
        HandleArrow(ctx, evt, cmd, s, b, clipboard)
      else if evt.key == KeyDelete && ctx.editable then
        var d :- DeleteForward(s, b);
        Ok(KeyOutcome(d.changed, d.changed, d.state, d.buffer, clipboard))
      else if evt.key == KeyBackspace && ctx.editable then
        var d :- DeleteBackward(s, b);
        Ok(KeyOutcome(d.changed, d.changed, d.state, d.buffer, clipboard))
      else
        HandleCommand(ctx, evt, cmd, s, b, clipboard)
  }

  /** Inserting one character adds exactly that character to the content. */
  lemma InsertedOneChar(old_: seq<char>, new_: seq<char>, pos: nat, c: char)
    requires pos <= |old_|
    requires new_ == old_[..pos] + [c][..1] + old_[pos..]
    ensures multiset(new_) == multiset(old_) + multiset{c}
  {
    assert old_ == old_[..pos] + old_[pos..];
    assert [c][..1] == [c];
  }

  /** Typing a character over a valid selection in an uncapped, editable
      control replaces the selected text with that character and leaves the
      caret right after it. */
  lemma {:induction false} TypingReplacesSelection(ctx: Context, evt: KeyEvent, s: State, b: Buffer, clipboard: seq<char>)
    requires evt.kind == Down && ctx.editable && b.maxLength == 0
    requires ReachesCommands(evt.key, true)
    requires TryGetCommand(ctx.os, evt).1 !in {{SelectAll}, {Cut}, {Copy}, {Paste}}
    requires evt.chr != '\0' && (ctx.multiline || evt.chr != '\n')
    requires 0 <= s.SelMin() <= s.SelMax() <= |b.chars|
    requires s.selection != 0 ==> s.SelMin() < |b.chars|
    ensures HandleKeyboardEvent(ctx, evt, s, b, clipboard).Ok?
    ensures var o := HandleKeyboardEvent(ctx, evt, s, b, clipboard).value;
      && o.handled && o.textChanged
      && o.buffer.chars == b.chars[..s.SelMin()] + [evt.chr] + b.chars[s.SelMax()..]
      && o.state == State(s.SelMin() + 1, 0)
      && o.clipboard == clipboard
  {
    var cmd := TryGetCommand(ctx.os, evt).1;
    assert HandleKeyboardEvent(ctx, evt, s, b, clipboard) == HandleCommand(ctx, evt, cmd, s, b, clipboard);
    assert HandleCommand(ctx, evt, cmd, s, b, clipboard) == HandleTyped(ctx, evt, s, b, clipboard);
    TypedReplacesSelection(ctx, evt, s, b, clipboard);
  }

  lemma {:induction false} TypedReplacesSelection(ctx: Context, evt: KeyEvent, s: State, b: Buffer, clipboard: seq<char>)
    requires ctx.editable && b.maxLength == 0
    requires evt.chr != '\0' && (ctx.multiline || evt.chr != '\n')
    requires 0 <= s.SelMin() <= s.SelMax() <= |b.chars|
    requires s.selection != 0 ==> s.SelMin() < |b.chars|
    ensures HandleTyped(ctx, evt, s, b, clipboard).Ok?
    ensures var o := HandleTyped(ctx, evt, s, b, clipboard).value;
      && o.handled && o.textChanged
      && o.buffer.chars == b.chars[..s.SelMin()] + [evt.chr] + b.chars[s.SelMax()..]
      && o.state == State(s.SelMin() + 1, 0)
      && o.clipboard == clipboard
  {
    var lo, hi := s.SelMin(), s.SelMax();
    var rest := b.chars[..lo] + b.chars[hi..];
    var d := DeleteSelection(s, b).value;
    if s.selection == 0 {
      assert b.chars == rest;
    }
    assert d.buffer.chars == rest && d.state == State(lo, 0) && d.buffer.maxLength == 0;
    var i := Insert(d.state, d.buffer, [evt.chr]).value;
    assert i.changed && i.state == State(lo + 1, 0);
    assert HandleTyped(ctx, evt, s, b, clipboard) == Ok(KeyOutcome(true, true, i.state, i.buffer, clipboard));
    assert i.buffer.chars == b.chars[..lo] + [evt.chr] + b.chars[hi..] by {
      assert i.buffer.chars == rest[..lo] + [evt.chr][..1] + rest[lo..];
      assert [evt.chr][..1] == [evt.chr];
      assert rest[..lo] == b.chars[..lo];
      assert rest[lo..] == b.chars[hi..];
    }
  }

  /** In single-line mode a typed line break is refused: nothing changes
      and the event is left unhandled. */
  lemma SingleLineRefusesLineBreak(ctx: Context, evt: KeyEvent, s: State, b: Buffer, clipboard: seq<char>)
    requires evt.kind == Down && !ctx.multiline && evt.chr == '\n'
    requires ReachesCommands(evt.key, ctx.editable)
    requires TryGetCommand(ctx.os, evt).1 !in {{SelectAll}, {Cut}, {Copy}, {Paste}}
    ensures HandleKeyboardEvent(ctx, evt, s, b, clipboard) == Ok(KeyOutcome(false, false, s, b, clipboard))
  {
  }

  /** The edit operations keep a caret that addresses the content; the
      insertion, which throws for any other caret, then always succeeds. */
  lemma EditsKeepCaretInRange(s: State, b: Buffer, text: seq<char>, multiline: bool)
    requires CaretInRange(s, b)
    ensures Insert(s, b, text).Ok?
    ensures var r := Insert(s, b, text); CaretInRange(r.value.state, r.value.buffer)
    ensures var r := DeleteSelection(s, b); r.Ok? ==> CaretInRange(r.value.state, r.value.buffer)
    ensures var r := DeleteBackward(s, b); r.Ok? ==> CaretInRange(r.value.state, r.value.buffer)
    ensures var r := DeleteForward(s, b); r.Ok? ==> CaretInRange(r.value.state, r.value.buffer)
    ensures var r := PasteAsWritten(s, b, text); r.Ok? ==> CaretInRange(r.value.state, r.value.buffer)
    ensures var r := PasteFromClipboard(s, b, text, multiline); r.Ok? ==> CaretInRange(r.value.state, r.value.buffer)
  {
    InsertKeepsCaretInRange(s, b, text);
    DeleteSelectionKeepsCaretInRange(s, b);
    PasteKeepsCaretInRange(s, b, text);
    PasteKeepsCaretInRange(s, b, if multiline then text else WithoutLineBreaks(text));
  }

  lemma InsertKeepsCaretInRange(s: State, b: Buffer, text: seq<char>)
    requires CaretInRange(s, b)
    ensures Insert(s, b, text).Ok?
    ensures var r := Insert(s, b, text); CaretInRange(r.value.state, r.value.buffer)
  {
  }

  lemma DeleteSelectionKeepsCaretInRange(s: State, b: Buffer)
    ensures var r := DeleteSelection(s, b);
      r.Ok? && (s.selection != 0 || CaretInRange(s, b)) ==> CaretInRange(r.value.state, r.value.buffer)
  {
  }

  lemma PasteKeepsCaretInRange(s: State, b: Buffer, text: seq<char>)
    ensures var r := PasteAsWritten(s, b, text);
      r.Ok? && CaretInRange(s, b) ==> CaretInRange(r.value.state, r.value.buffer)
  {
  }

  /** Handling a key keeps a caret that addresses the content, given an
      up/down target that does. */
  lemma {:induction false} KeyboardKeepsCaretInRange(ctx: Context, evt: KeyEvent, s: State, b: Buffer, clipboard: seq<char>)
    requires CaretInRange(s, b)
    requires forall c, d :: 0 <= ctx.verticalTarget(c, d) <= |b.chars|
    ensures var r := HandleKeyboardEvent(ctx, evt, s, b, clipboard);
      r.Ok? ==> CaretInRange(r.value.state, r.value.buffer)
  {
    if evt.kind == Down {
      var cmd := TryGetCommand(ctx.os, evt).1;
      if IsArrow(evt.key) {
        ArrowKeepsCaretInRange(ctx, evt, cmd, s, b, clipboard);
      } else if (evt.key == KeyDelete || evt.key == KeyBackspace) && ctx.editable {
        EditsKeepCaretInRange(s, b, clipboard, ctx.multiline);
      } else {
        CommandKeepsCaretInRange(ctx, evt, cmd, s, b, clipboard);
      }
    }
  }

  lemma ArrowKeepsCaretInRange(ctx: Context, evt: KeyEvent, cmd: set<CommandFlag>, s: State, b: Buffer, clipboard: seq<char>)
    requires IsArrow(evt.key)
    requires CaretInRange(s, b)
    requires forall c, d :: 0 <= ctx.verticalTarget(c, d) <= |b.chars|
    ensures var r := HandleArrow(ctx, evt, cmd, s, b, clipboard);
      r.Ok? ==> CaretInRange(r.value.state, r.value.buffer)
  {
  }

  lemma {:induction false} CommandKeepsCaretInRange(ctx: Context, evt: KeyEvent, cmd: set<CommandFlag>, s: State, b: Buffer, clipboard: seq<char>)
    requires CaretInRange(s, b)
    ensures var r := HandleCommand(ctx, evt, cmd, s, b, clipboard);
      r.Ok? ==> CaretInRange(r.value.state, r.value.buffer)
  {
    if cmd == {Cut} {
      DeleteSelectionKeepsCaretInRange(s, b);
    } else if cmd == {Paste} && ctx.editable {
      PasteKeepsCaretInRange(s, b, clipboard);
    } else if !(cmd == {SelectAll} || cmd == {Copy}) {
      DeleteSelectionKeepsCaretInRange(s, b);
      var d := DeleteSelection(s, b);
      if d.Ok? {
        InsertKeepsCaretInRange(d.value.state, d.value.buffer, [evt.chr]);
      }
    }
  }

  /** The dispatcher pastes the clipboard verbatim, so in an editable
      single-line control the platform paste shortcut can add a line break
      that typing it could not. */
  lemma SingleLinePasteAddsLineBreak(ctx: Context, chr: char)
    requires !ctx.multiline && ctx.editable
    ensures var evt := KeyEvent(Down, KeyV, {PlatformModifier(ctx.os)}, chr);
      var b := Buffer([], 0, true);
      var r := HandleKeyboardEvent(ctx, evt, State(0, 0), b, "a\nb");
      && r.Ok?
      && r.value.handled && r.value.textChanged
      && r.value.buffer.chars == "a\nb"
      && r.value.state == State(3, 0)
      && !NoLineBreakAdded(b.chars, r.value.buffer.chars)
  {
    var s, b := State(0, 0), Buffer([], 0, true);
    PasteShortcutPastes(ctx, chr, s, b, "a\nb");
    PasteIntoEmptyBuffer(s, b, "a\nb");
    var p := PasteAsWritten(s, b, "a\nb").value;
    assert multiset(p.buffer.chars)['\n'] == 1;
  }

  /** In an editable control the platform paste shortcut runs the paste. */
  lemma PasteShortcutPastes(ctx: Context, chr: char, s: State, b: Buffer, clipboard: seq<char>)
    requires ctx.editable
    ensures var evt := KeyEvent(Down, KeyV, {PlatformModifier(ctx.os)}, chr);
      HandleKeyboardEvent(ctx, evt, s, b, clipboard) ==
        (var p :- PasteAsWritten(s, b, clipboard); Ok(KeyOutcome(p.changed, p.changed, p.state, p.buffer, clipboard)))
  {
    var evt := KeyEvent(Down, KeyV, {PlatformModifier(ctx.os)}, chr);
    var cmd := TryGetCommand(ctx.os, evt).1;
    PlatformTablesAgree(ctx.os, evt);
    MovementFlagsOnlyOnArrows(ctx.os, evt);
    assert cmd == {Paste} by {
      forall f | f in cmd ensures f == Paste {
        match f
        case Paste =>
        case _ =>
      }
    }
    assert HandleKeyboardEvent(ctx, evt, s, b, clipboard) == HandleCommand(ctx, evt, cmd, s, b, clipboard);
  }

  /** Pasting into an empty, uncapped buffer yields the clipboard text
      verbatim, caret after it. */
  lemma PasteIntoEmptyBuffer(s: State, b: Buffer, text: seq<char>)
    requires s == State(0, 0) && b.chars == [] && b.maxLength == 0 && |text| > 0
    ensures PasteAsWritten(s, b, text).Ok?
    ensures PasteAsWritten(s, b, text).value.buffer.chars == text
    ensures PasteAsWritten(s, b, text).value.state == State(|text|, 0)
    ensures PasteAsWritten(s, b, text).value.changed
  {
    var p := PasteAsWritten(s, b, text).value;
    assert p.buffer.chars == [] + text[..|text|] + [];
    assert text[..|text|] == text;
  }

  datatype TextEventType = NoTextEvent | Cancel | Submit | SetText

  /** A platform text event; `selection` is an optional `(start, length)`. */
  datatype TextEvent = TextEvent(kind: TextEventType, text: seq<char>, selection: Option<(int, int)>)

  /** What a text event did: the new state and buffer, whether the text is
      reported as changed, and whether the control is deactivated. */
  datatype TextOutcome = TextOutcome(state: State, buffer: Buffer, textChanged: bool, deactivate: bool)

  /** The text-event branch of the control: Cancel deactivates without
      committing; Set replaces the content and optionally the selection;
      Submit replaces the content and deactivates. */
  function HandleTextEvent(evt: TextEvent, s: State, b: Buffer): (r: TextOutcome)
    ensures evt.kind == NoTextEvent ==> r == TextOutcome(s, b, false, false)
    ensures evt.kind == Cancel ==> r == TextOutcome(s, b, false, true)
    ensures evt.kind in {SetText, Submit} ==>
      && (r.textChanged <==> |b.chars| != 0 || |evt.text| != 0)
      && r.buffer == SetAsWritten(s, b, evt.text).1
      && (r.deactivate <==> evt.kind == Submit)
    ensures evt.kind == Submit || (evt.kind == SetText && evt.selection.None?) ==>
      r.state == State(|evt.text|, 0)
    ensures evt.kind == SetText && evt.selection.Some? ==>
      r.state == State(evt.selection.value.0, evt.selection.value.1)
  {
    match evt.kind
    case NoTextEvent => TextOutcome(s, b, false, false)
    case Cancel => TextOutcome(s, b, false, true)
    case SetText =>
      var changed := |b.chars| != 0 || |evt.text| != 0;
      var (ns, nb) := SetAsWritten(s, b, evt.text);
      var ns' := if evt.selection.Some? then State(evt.selection.value.0, evt.selection.value.1) else ns;
      TextOutcome(ns', nb, changed, false)
    case Submit =>
      var changed := |b.chars| != 0 || |evt.text| != 0;
      var (ns, nb) := SetAsWritten(s, b, evt.text);
      TextOutcome(ns, nb, changed, true)
  }

  /** Submitting a text that fits the cap commits exactly that text,
      deactivates the control and leaves the caret on the content's end. */
  lemma SubmitCommitsText(s: State, b: Buffer, text: seq<char>)
    requires b.maxLength == 0 || (b.maxLength > 0 && |text| <= b.maxLength)
    ensures var r := HandleTextEvent(TextEvent(Submit, text, None), s, b);
      && r.buffer.chars == text
      && r.deactivate
      && r.state.caret == |r.buffer.chars| && r.state.selection == 0
      && CaretInRange(r.state, r.buffer)
  {
  }

  /** Setting a text that fits the cap and reading the buffer back yields
      the text, with the caret after it and no selection. */
  lemma SetRoundTrip(s: State, b: Buffer, text: seq<char>)
    requires b.maxLength == 0 || |text| <= b.maxLength
    requires b.maxLength >= 0
    ensures Set(s, b, text).1.chars == text
    ensures Set(s, b, text).0 == State(|text|, 0)
  {
  }
}

=== FILE: text_layout.dfy ===
/** The part of a text layout the editing engine reads: the line table.

    The layout itself is built by the text drawer, which is not part of this
    model; here a layout is only its ordered lines, each a `(start, count)`
    range of buffer offsets. */
module TextLayout {

  datatype Line = Line(start: int, count: int)

  /** Total character count of the first `k` lines. */
  function CountBefore(lines: seq<Line>, k: nat): int
    requires k <= |lines|
  {
    if k == 0 then 0 else CountBefore(lines, k - 1) + lines[k - 1].count
  }

  /** A layout that tiles the offsets `[0, n)` with consecutive lines in
      order, as the text drawer produces for an `n`-character buffer. */
  predicate Tiles(lines: seq<Line>, n: int) {
    && |lines| >= 1
    && (forall k :: 0 <= k < |lines| ==> lines[k].count >= 0)
    && (forall k :: 0 <= k < |lines| ==> lines[k].start == CountBefore(lines, k))
    && CountBefore(lines, |lines|) == n
  }

  /** The walk behind `FindLineAtCaretPosition`, resumed at line `line` with
      `caret` already reduced by the counts of the lines before it. */
  function FindLineFrom(caret: int, lines: seq<Line>, line: nat): (r: (nat, int))
    requires line <= |lines|
    ensures line <= r.0
    ensures r.0 < |lines| || r.0 == line
    ensures r.0 <= |lines|
    ensures r.1 == caret - (CountBefore(lines, r.0) - CountBefore(lines, line))
    ensures r.0 + 1 < |lines| ==> r.1 < lines[r.0].count
    ensures forall k :: line <= k < r.0 ==>
      lines[k].count <= caret - (CountBefore(lines, k) - CountBefore(lines, line))
    decreases |lines| - line
  {
    if line + 1 < |lines| && lines[line].count <= caret then
      FindLineFrom(caret - lines[line].count, lines, line + 1)
    else
      (line, caret)
  }

  /** The line holding `caret` and the caret's offset within it: the walk
      skips every line (but the last) whose count does not exceed what is
      left of the caret. */
  function FindLineAtCaretPosition(caret: int, lines: seq<Line>): (r: (nat, int))
    ensures |lines| == 0 ==> r == (0, caret)
    ensures |lines| > 0 ==> r.0 < |lines|
    ensures r.0 <= |lines|
    ensures r.1 == caret - CountBefore(lines, r.0)
    ensures r.0 + 1 < |lines| ==> r.1 < lines[r.0].count
    ensures forall k :: 0 <= k < r.0 ==> lines[k].count <= caret - CountBefore(lines, k)
  {
    FindLineFrom(caret, lines, 0)
  }

  /** On a layout tiling `[0, n)`, every caret in `[0, n]` lands inside the
      line that is found, at its offset from that line's start. */
  lemma {:induction false} FoundLineContainsCaret(lines: seq<Line>, n: int, caret: int)
    requires Tiles(lines, n)
    requires 0 <= caret <= n
    ensures var (line, offset) := FindLineAtCaretPosition(caret, lines);
      && line < |lines|
      && 0 <= offset <= lines[line].count
      && lines[line].start + offset == caret
      && (line + 1 < |lines| ==> offset < lines[line].count)
  {
    var (line, offset) := FindLineAtCaretPosition(caret, lines);
    if line > 0 {
      assert lines[line - 1].count <= caret - CountBefore(lines, line - 1);
      assert CountBefore(lines, line) == CountBefore(lines, line - 1) + lines[line - 1].count;
    }
    assert lines[line].start == CountBefore(lines, line);
    if line + 1 == |lines| {
      assert CountBefore(lines, |lines|) == CountBefore(lines, line) + lines[line].count;
    }
  }
}

=== FILE: wrappers.dfy ===
/** Failure-carrying results shared by every module of the model.

    The source signals programming errors by throwing .NET exceptions; the
    model returns them as `Err` values instead, naming the exception kind. */
module Wrappers {

  /** The exception kinds the modelled code can throw. */
  datatype Error =
    | ArgumentOutOfRange   // System.ArgumentOutOfRangeException
    | IndexOutOfRange      // System.IndexOutOfRangeException (array or span index)
    | DivideByZero         // System.DivideByZeroException (`%` by a zero capacity)
    | ArgumentInvalid      // System.ArgumentException (destination too short, min > max)
    | NotImplemented       // System.NotImplementedException
    | Overflow             // System.OverflowException (negative array size)

  datatype Option<+T> = None | Some(value: T)

  datatype Result<+T> = Ok(value: T) | Err(error: Error) {
    predicate IsFailure() {
      Err?
    }

    function PropagateFailure<U>(): Result<U>
      requires Err?
    {
      Err(error)
    }

    function Extract(): T
      requires Ok?
    {
      value
    }
  }
}
